=== FILE: README.md ===
# Container3d viewport core, in Dafny

A model of the runtime core of `Container3d`, a React component that owns a
three.js scene, camera and renderer and drives them with a
`requestAnimationFrame` loop. The model covers four pieces of sequential
logic in `src/index.js`:

- **The hover tracker.** `lastIntersectedObj` is a two-state machine, `null`
  or an object. Each frame it is fed the nearest hit of the pointer ray and
  emits `hoverEnd` / `hoverStart` calls. See `hover.dfy` and `hit_test.dfy`.
- **Viewport sizing.** Two rules compute a size:
  - `updateDimensions` uses `parseInt`, `fitScreen`, the margins, and
    `aspect` or `height`.
  - `getSize` is used once, when the camera is created. It uses
    `parseFloat` and always divides by `aspect`.

  The model also covers what each rule writes into the canvas, renderer and
  camera. See `sizing.dfy`, built on a small model of JavaScript numbers,
  truthiness, `parseInt` and `parseFloat` in `js_values.dfy`.
- **The per-frame driver `_render`.** One frame is a pure function. It takes
  the props, the runtime state and the raycaster's answer. It returns the new
  state and the ordered trace of what the frame did: request the next frame,
  force the angles, call `update` (catching and reporting), refresh the
  camera, cast the ray, dispatch hover calls, render. It is modelled both as
  the code intends it and as written; see "Findings". See `render_loop.dfy`.
- **The scene lifecycle.**
  - `_createScene` populates a scene: grid and shadow plane, controls, lights,
    then `setup` inside `try`/`catch`.
  - `reloadScene` and `clearScene` rebuild the scene.
  - `onError` forwards errors to the `onError` prop.
  - `init` and `componentDidMount` put these together.

  See `lifecycle.dfy`, with the props record in `props.dfy`.

Modelling choices:

- **Numbers.** A JavaScript number is `Finite(real)`, a signed `Infinity`
  or `NaN`. An `undefined` prop read in arithmetic is `NaN`. Arithmetic is
  exact over `real`, so there is no IEEE rounding, and negative zero is
  zero.
- **Multiplication and division** (`JsValues.Mul`, `JsValues.Div`) follow
  the ECMA-262 tables for `NaN`, zeros and infinities. A non-zero value
  over zero is an infinity, `0 / 0` is `NaN`, and a finite value over an
  infinity is 0. The camera aspect `width / height` is therefore modelled
  for every size, a zero or infinite height included. No `height != 0`
  precondition is needed.
- **Truthiness.** A number prop is truthy when set and non-zero. A string
  prop is truthy when set and non-empty.
  - `addGrid`, `addLight`, `enablePan`, `enableZoom` and `enableKeys` are
    compared with `undefined` before use. They are `Option<bool>`, and an
    unset one counts as `true`.
- **Scenes** are sequences of object kinds: grid, shadow plane, ambient
  light, spot light, and caller objects. Object identity (`ObjId`) stands
  for JavaScript reference identity.
- **Callbacks.** `setup` and `update` are pure functions of the scene. Each
  either returns a new scene or throws part way, leaving a scene and an
  error. The hover handlers and the `onError` prop are present or absent,
  and are assumed to return; see "Left out".
- **Raycasting** is an oracle: the sequence of intersections three.js
  reports, nearest first.

Where the code's behaviour is easy to misread, the model follows the code:

- `clearScene` as written throws part way on any scene with two or more
  top-level children, which includes every default population; the model's
  `Clear` is the sweep that completes. See "Left out".
- `reloadScene(s)` populates on top of `s`, so the defaults are appended to
  the caller's objects.
- Division by a zero height or aspect is not clamped. It yields an
  infinity, or `NaN` for `0 / 0`. A camera built from an infinite height
  has aspect 0.
- An `update` error is not isolated on any frame after the first; see
  "Findings".

## Model

| member | source | states |
|---|---|---|
| JsValues.Div | src/index.js:131 | JavaScript `a / b`: finite exactly when `a` is finite and `b` is a non-zero finite value or an infinity; then the quotient times a finite `b` is `a`, and over an infinity it is 0; `NaN` exactly for a `NaN` operand, `0 / 0` or an infinity over an infinity; an infinite quotient has the sign of the signs' quotient |
| JsValues.Mul | src/index.js:108 | JavaScript `a * b`: finite exactly when both are, and then the product; `NaN` exactly for a `NaN` operand or zero times an infinity; an infinite product has the sign of the signs' product |
| JsValues.ParseInt | src/index.js:108 | `parseInt(s, 10)` is `NaN` exactly when no digit follows the leading white space and optional sign; a negative result needs a minus sign and a positive one excludes it |
| JsValues.ParseFloat | src/index.js:61 | `parseFloat` gives ±Infinity exactly when "Infinity" follows the white space and sign, with the sign's polarity; `NaN` exactly when neither a digit nor a point and a digit starts there; a negative finite result needs a minus sign |
| JsValues.ParseIntNumeral | src/index.js:108 | `parseInt(s, 10)` reads back any decimal numeral after optional white space and sign, whatever follows the digits ("100%" gives 100) |
| JsValues.ParseIntNaN | src/index.js:108 | a string with no white space, sign or digit at its head gives `NaN` |
| JsValues.ParseFloatNumeral | src/index.js:61 | `parseFloat` reads back a decimal integer followed by anything that does not continue a number |
| JsValues.ParseFloatDecimal | src/index.js:61 | `parseFloat` reads back any decimal fraction `n.ds` after optional white space and plus sign, followed by anything that does not continue the literal ("12.5%" gives 12.5) |
| JsValues.ParseIntTruncatesFraction | src/index.js:108 | on "12.5%" `parseInt` gives 12 while `parseFloat` gives 12.5 |
| Hover.Step | src/index.js:189-205 | a hit on a new object ends the old hover (if any) and then starts the new one; a miss ends the old hover (if any); a hit on the hovered object emits nothing; the state becomes the hit, or null on a miss; the events are a legal run of the machine |
| Hover.Run | src/index.js:189-205 | over any sequence of frames the tracker ends on the last frame's hit and its event trace is a legal run |
| Hover.LegalIffAlternating | src/index.js:189-205 | the runs of the tracker's state machine are exactly the alternating traces (first event fits the start state, no two starts in a row, every end names the object of the start just before it), in both directions |
| Hover.RunAlternates | src/index.js:189-205 | from no hover, the events over any sequence of hits alternate, begin with a start, and leave the tracker where the last event says |
| HitTest.NearestHit | src/index.js:187-190 | the hovered candidate is `intersects[0].object`: none exactly when there are no intersections, otherwise an intersected object of minimal distance |
| HitTest.NormalizePointer | src/index.js:318-321 | the pointer is the client point relative to the canvas rectangle scaled onto [-1, 1], y flipped; finite exactly when the rectangle has non-zero extent; on a zero extent it is `NaN` exactly at the rectangle's edge and otherwise an infinity on the pointer's side (flipped for y) |
| HitTest.NormalizeRoundTrip | src/index.js:320-321 | normalising and mapping back gives the client point again |
| HitTest.NormalizeInside | src/index.js:320-321 | a point inside the rectangle lands in [-1, 1] on both axes, left and top edges at -1 and 1, right and bottom edges at 1 and -1 |
| Sizing.PercentOf | src/index.js:108 | `innerWidth * percent / 100`: finite exactly when the percent is, `NaN` exactly when the percent is `NaN` or infinite in a window of zero width |
| Sizing.Dimensions | src/index.js:97-124 | a truthy `percentageWidth` replaces `width` by that integer percentage of the window width; `fitScreen` sets the height to the window height less the truthy margins; otherwise a truthy `aspect` gives `width / aspect` and else `height` passes through |
| Sizing.ApplyDimensions | src/index.js:127-133 | the canvas height, the renderer size and the camera aspect all come from the one computed size |
| Sizing.CameraAspect | src/index.js:131 | the camera aspect is finite exactly when the width is finite and the height is finite and non-zero or infinite; then aspect times a finite height is the width, and over an infinite height the aspect is 0 |
| Sizing.InitialSize | src/index.js:58-69 | `getSize` reads the percentage with `parseFloat` and divides the width by `aspect` whatever `fitScreen` says, giving a non-finite height when `aspect` is unset or 0 |
| Sizing.InitialView | src/index.js:137-145 | `init` sets the canvas height and builds the camera with aspect `width / height` from `getSize`, before any renderer size is set |
| Sizing.ZeroAspectFlattensCamera | src/index.js:58-69 | an `aspect` of 0 makes `getSize` divide by zero: a positive width gives height `+Infinity`, and the camera `init` builds at :145 gets aspect 0 |
| Sizing.FitScreenHeightIgnoresAspect | src/index.js:111-124 | under `fitScreen` the height depends only on the window height and the two margins |
| Sizing.WidthIgnoresHeightOptions | src/index.js:107-109 | the width depends only on `width`, `percentageWidth` and the window width |
| Sizing.CameraKeepsAspect | src/index.js:111-131 | without `fitScreen`, a truthy `aspect` and a finite non-zero width give the camera exactly that aspect |
| Sizing.InitialCameraKeepsAspect | src/index.js:58-69 | the camera `init` builds has the `aspect` prop as its aspect whenever the initial width is finite and non-zero |
| Sizing.InitialAgreesOnWholePercent | src/index.js:58-69 | with a whole-number percentage (or none), a truthy `aspect` and no `fitScreen`, `getSize` and `updateDimensions` give the same size |
| Sizing.WholePercentReadsAlike | src/index.js:61 | `parseFloat` and `parseInt` both read "n%" as n |
| Sizing.InitialDisagreesOnFractionalPercent | src/index.js:58-69 | with "12.5%" of a 1000px window, `getSize` gives width 125 and `updateDimensions` gives 120 |
| Sizing.HundredPercent | stories/index.stories.js:13 | "100%" reads as 100 under both conversions |
| Sizing.DemoFillsWindow | stories/index.stories.js:10-17 | the demo configuration fills the window width and the window height less 140px: 1280 by 660 in a 1280 by 800 window |
| Sizing.HalfWidthAtSixteenNinths | src/index.js:107-113 | "50%" of a 1000px window at aspect 16/9 is 500 by 281.25 |
| Lifecycle.DefaultTrue | src/index.js:257 | `x !== undefined ? x : true` is false only for an explicit false |
| Lifecycle.NewControls | src/index.js:272-284 | new controls have pan, zoom and keys on unless explicitly set off, and report angle changes when `onUpdateAngles` was given |
| Lifecycle.Report | src/index.js:309-313 | `onError` forwards the error exactly when the `onError` prop is set, and drops it otherwise |
| Lifecycle.Guarded | src/index.js:300-306 | a callback inside `try`/`catch`: the scene it leaves, nothing reported when it returns, its error forwarded when it throws |
| Lifecycle.Populate | src/index.js:247-307 | the defaults are appended to the scene, controls are replaced only when `addControls` is truthy, and `setup` then sees the populated scene with its error caught and forwarded |
| Lifecycle.Reload | src/index.js:238-244 | `reloadScene(s)` populates `s`, or a fresh empty scene, keeps the hover and camera, and re-applies `updateDimensions` |
| Lifecycle.Clear | src/index.js:83-93 | `clearScene()` ends in the same state as `reloadScene()` with no argument |
| Lifecycle.Resize | src/index.js:35 | the resize handler changes the sizing only |
| Lifecycle.Initialize | src/index.js:136-157 | `init` creates a camera sized by `getSize`, populates a fresh scene with no controls yet, and keeps whatever `lastIntersectedObj` held before (module-level, :11) as the hovered object |
| Lifecycle.DefaultObjectsShape | src/index.js:257-298 | grid and plane are present exactly when `addGrid` is not explicitly false, both lights exactly when `addLight` is not, the grid precedes the lights, and no default is a caller object |
| Lifecycle.PopulateEmpty | src/index.js:247-298 | with no `setup`, populating an empty scene gives exactly the defaults |
| Lifecycle.ClearMatchesReload | src/index.js:83-93 | assuming the sweep completes (at most one top-level child), `clearScene()` and `reloadScene()` leave the same scene whatever was there before: an empty scene populated |
| Lifecycle.ClearLeavesOnlyDefaults | src/index.js:83-93 | assuming the sweep completes (at most one top-level child), with no `setup`, nothing of the old scene survives `clearScene()` |
| Lifecycle.ReloadAppendsDefaults | src/index.js:238-242 | with no `setup`, `reloadScene(s)` keeps `s` as it was and appends the defaults after it |
| Lifecycle.SetupErrorReported | src/index.js:300-306 | a throwing `setup` has its error reported once when `onError` is set and dropped otherwise; population completes either way |
| Lifecycle.ClearKeepsHover | src/index.js:83-93 | clearing the scene does not reset the hovered object |
| RenderLoop.Frame | src/index.js:160-208 | with the :174 fix, a frame starts with the only request for the next frame and ends with the only render, keeps the phase order, calls `update` exactly when it is set, casts the ray exactly when a hover handler is set and the camera exists |
| RenderLoop.FrameState | src/index.js:170-206 | with the :174 fix, after a frame the scene is what `update` left, the hovered object is the nearest hit when hover is tracked, and controls, sizing and camera are unchanged |
| RenderLoop.FrameTrace | src/index.js:160-208 | with the :174 fix, a frame's trace holds one request first and one render last, is in phase order, and holds the update call and the ray cast exactly when those parts run |
| RenderLoop.FrameReportsUpdateError | src/index.js:170-176 | with the :174 fix, a frame reports the error of a throwing `update` exactly once when `onError` is set, and nothing otherwise |
| RenderLoop.FrameHoverEvents | src/index.js:179-206 | with the :174 fix, a frame dispatches exactly the tracker's events for the nearest hit when hover is tracked, and none otherwise |
| RenderLoop.EmptySceneEndsHover | src/index.js:187-204 | with the :174 fix, when `update` leaves the scene empty, a tracked frame's ray hits nothing: it ends the old hover if there was one, starts none, and leaves nothing hovered |
| RenderLoop.FrameAsWritten | src/index.js:170-176 | as written, the first frame is the intended one; a later frame whose `update` throws stops after the call: nothing reported, no ray cast, no render, hover unchanged, next frame already requested |
| RenderLoop.ScheduledThrowIsLost | src/index.js:160-176 | on a scheduled frame with a throwing `update` and `onError` set, the intended frame reports the error and renders; the frame as written does neither |
| RenderLoop.SecondFrameLosesError | src/index.js:161-210 | with an always-throwing `update`, the first frame (called by `init`) reports the error and the second (called by `requestAnimationFrame`) does not |
| RenderLoop.Frames | src/index.js:160-161 | with the :174 fix and one live loop, over n frames the loop requests n next frames and renders n times |
| RenderLoop.FramesReportEveryThrow | src/index.js:170-176 | with the :174 fix and an `update` that throws on every scene and `onError` set, every frame reports exactly one error |
| RenderLoop.FramesReportThrownErrors | src/index.js:170-176 | with the :174 fix and `onError` set, the loop reports exactly the errors `update` throws, in frame order, each call seeing the scene the previous one left |
| RenderLoop.LoopAsWritten | src/index.js:160-161 | as written, every frame requests exactly one next frame, whether or not it is cut short |
| RenderLoop.ScheduledAsWritten | src/index.js:160-161 | as written, n frames called by `requestAnimationFrame` request n next frames |
| RenderLoop.ScheduledThrowsSilent | src/index.js:170-176 | as written, frames called by `requestAnimationFrame` with an always-throwing `update` report nothing and never render |
| RenderLoop.LoopAsWrittenReportsOnce | src/index.js:160-210 | as written, with an always-throwing `update` and `onError` set, over n ≥ 1 frames only the first frame's error is reported and only the first frame renders, while all n frames request the next |
| RenderLoop.FramesFollowTracker | src/index.js:179-215 | with the :174 fix and one live loop, while hover is tracked, the loop dispatches exactly the tracker's events over the frames' nearest hits, and `getIntersectedObject` ends on the tracker's final state |
| RenderLoop.FramesHoverAlternates | src/index.js:189-205 | with the :174 fix and one live loop, starting with nothing hovered, the hover calls the loop dispatches alternate: a start first, no two starts in a row, each end naming the object just started |
| RenderLoop.SetAngles | src/index.js:51-56 | `setAngles` sets both angles when controls exist and does nothing at all when they do not, whatever the values |
| RenderLoop.FrameSetsAnglesIffOverride | src/index.js:163-168 | when `phi`, `theta` and the controls are all truthy the frame forces the angles to `phi` and `theta` right after requesting the next frame, and otherwise it sets no angle at all |
| RenderLoop.ZeroAngleSkippedByFrame | src/index.js:163-168 | a zero `phi` is falsy, so the frame never forces the angles, while `setAngles` applies a zero angle |
| RenderLoop.Mount | src/index.js:26-36 | after mounting, the sizing is `updateDimensions`'s rather than `getSize`'s, the first frame requested the next one first and rendered exactly once, and the controls are those population created |
| RenderLoop.MountReportsErrors | src/index.js:136-176 | mounting reports the error `setup` threw and then the one the first `update` threw, in that order, each only when `onError` is set |
| RenderLoop.MountHovers | src/index.js:136-210 | after mounting, the hovered object is the first frame's nearest hit when a hover handler is set, and the inherited `lastIntersectedObj` otherwise |
| RenderLoop.RemountEndsStaleHover | src/index.js:189-202 | a component mounted while `lastIntersectedObj` still holds `x` from an unmounted one opens its first tracked frame with `hoverEnd(x)` unless the ray hits `x` again |
| RenderLoop.FirstMountStartsHover | src/index.js:11 | on the first mount in a page, where `lastIntersectedObj` is still the `null` it was declared with, the first frame's hover calls, if any, open with a start |

## Left out

- Unmounting and the event listeners (`componentWillUnmount`, the `resize`
  and `mousemove` registrations) are host plumbing. Only the handlers'
  effects are modelled, as `Resize` and `NormalizePointer`. The removal at
  src/index.js:43 passes a freshly bound function, so it removes nothing;
  listener registration is not part of this model, so that is not stated
  as a finding.
- `relatedCanvas`, and the accessors `getScene`, `getCamera` and
  `getRenderer`, carry no logic. `getIntersectedObject` is the runtime's
  `hover` field.
- The hover forwarding methods `onHoverStart` and `onHoverEnd` are not
  modelled. A `HoverCall` step is the call to the component method. The
  method's own check that the prop is set is not modelled, and `onHover` is
  never called.
- three.js internals are foreign code and are not modelled:
  - ray construction, and recursive intersection through groups; the
    raycaster is an oracle that returns a sorted list;
  - camera matrices;
  - the renderer and shadow maps;
  - grid, plane and light parameters.
- OrbitControls is modelled only as present or absent with its flags. The
  effect of setting its angles is not modelled.
- Disposal during `scene.traverse` in `clearScene` is not modelled. Its
  effect depends on three.js traversal over a child list that the removal
  itself mutates. The model only empties the scene.
- Lifecycle.Clear: assumes the sweep at src/index.js:85-89 completes, which
  happens only when the scene has at most one top-level child. The
  traversal reads the child count l once, while `scene.remove` at :86
  removes each visited child from that same list. Every other child is
  skipped, and the visit at index ⌈l/2⌉ finds no child and throws a
  `TypeError` before the new scene at :91 and the reload at :92. With two or
  more top-level children it always throws, so it throws on every
  population that adds the grid or a light. The default population (grid,
  plane, ambient light, spot light) throws at index 2. By then the grid and
  the ambient light are removed and disposed, the plane and the spot light
  stay, and nothing is reloaded. "The same state as `reloadScene()`" holds
  only for a sweep that completes.
- Lifecycle.ClearMatchesReload: the same assumption. On any scene with two
  or more top-level children, `clearScene()` as written throws instead of
  matching `reloadScene()`.
- Lifecycle.ClearLeavesOnlyDefaults: the same assumption. On a default
  scene, as written, the old plane and spot light survive the throw.
- The renderer options in `init`, including `antialias`, are renderer
  configuration with no bearing on the modelled state.
- Module-level globals (`renderer`, `scene`, `camera`, `controls`, `mouse`,
  `lastIntersectedObj`) are shared between instances. Each model runtime is
  one instance's state. `lastIntersectedObj` outlives an unmount and
  enters `Initialize` and `Mount` as the `inherited` hover.
- The loop of an unmounted component is not modelled. `componentWillUnmount`
  (src/index.js:38-44) only nulls the globals; the loop rescheduled at :161
  is never cancelled. After a remount the old loop runs on the new
  component's renderer, scene, camera and controls with the old props: its
  angles (:165), its `update` (:172), its hover handlers (:192-202) and its
  render (:207). The model runs one live loop at a time.
- Scheduling is not modelled: the timing of `requestAnimationFrame`, and
  frames that run after unmount when the renderer is `null` and no new
  component has mounted. A frame is a
  step, and `Frames` is a finite prefix of the loop.
- IEEE-754 floating point is not modelled. Numbers are exact reals, so
  rounding, overflow to infinity and precision limits are absent. Negative
  zero is zero, so `1 / -Infinity` is 0 rather than -0.
- RenderLoop.Frame: assumes the hover handlers return normally. The calls
  at src/index.js:192, :194, :197 and :202 run outside any `try`, so a
  handler that throws escapes the frame before the render at :207; a throw
  at :192 also leaves `lastIntersectedObj` on the old object. "Ends with
  the only render" holds only for handlers that return.
- RenderLoop.Frames: the same assumption; n renders over n frames holds only
  while no hover handler throws. It also assumes one live loop; a loop left
  over from an earlier mount adds its own requests, renders, reports and
  hover calls. Its steps are the corrected frame (the :174 fix); the loop as
  written is `LoopAsWritten`.
- RenderLoop.FramesFollowTracker: assumes one live loop. A loop left over
  from an earlier mount runs the tracker on the same `lastIntersectedObj`
  with the old hover handlers, so the events seen are no longer one run of
  the tracker. It also assumes the :174 fix: as written, a throwing
  `update` on a scheduled frame skips that frame's hover step.
- RenderLoop.FramesHoverAlternates: the same two assumptions as
  `FramesFollowTracker`.
- RenderLoop.FramesReportEveryThrow: holds for the corrected frame only. As
  written, only the first frame reports (`LoopAsWrittenReportsOnce`).
- RenderLoop.FramesReportThrownErrors: the same; it holds for the corrected
  frame only.
- RenderLoop.FrameHoverEvents: the same assumption; the dispatched events
  are the tracker's only while every handler returns. It also describes the
  corrected frame (the :174 fix). As written, a frame called by
  `requestAnimationFrame` whose `update` throws dispatches nothing, even
  when hover is tracked (`FrameAsWritten`).
- RenderLoop.FrameState: describes the corrected frame. As written, a
  scheduled frame whose `update` throws keeps the old hovered object.
- RenderLoop.FrameTrace: describes the corrected frame. As written, a
  scheduled frame whose `update` throws has no render and no ray cast.
- RenderLoop.EmptySceneEndsHover: describes the corrected frame. As
  written, a scheduled frame whose `update` throws skips the hover step, so
  the old hover is not ended.
- Lifecycle.Report: assumes the `onError` prop returns. One that throws at
  src/index.js:311 escapes the catch at :304, and with it `_createScene`
  and `init`.
- Lifecycle.Populate: the same assumption about `onError`; population ends
  normally only when the `onError` prop returns.
- Some prop values are not modelled: `NaN`, numbers given as strings, and
  an explicit `null`. Number props are `Option<real>`, where `None` is
  `undefined`. A `null` would read as 0 in arithmetic, and as a set value for
  the `!== undefined` flags (`addGrid={null}` hides the grid).
- The DOM conversion of the canvas `height` attribute to an unsigned
  integer is not modelled. `View` records the number that was assigned.
- The callbacks' `camera` and `renderer` arguments are not modelled. `setup`
  and `update` see only the scene.

## Findings

| source | as written | input that shows it | evidently intended | confidence | as-written member | corrected member |
|---|---|---|---|---|---|---|
| src/index.js:174 | the `update` catch block calls `this.onError(error)` inside the plain function stored in `this._render`; frames after the first are called by `requestAnimationFrame`, where `this` is `undefined` (class code is strict), so the catch block itself throws a `TypeError` | any props whose `update` throws, with `onError` set (`ThrowingProps`), on the second frame: the error never reaches `onError`, and the frame does no hover step and no render | `_this.onError(error)`, as the setup path does at :304: the error is reported and the frame goes on to hover tracking and render | not executed; high | RenderLoop.FrameAsWritten | RenderLoop.Frame |

=== FILE: hit_test.dfy ===
/**
  Hit testing as the render loop sees it. Building the ray and intersecting
  it with the scene is three.js's job and is an oracle here: what the loop
  gets is the list of intersections, nearest first, from which it takes the
  head. The pointer position it casts from is the normalised device
  coordinate written by the mouse-move listener.
*/
module HitTest {
  import opened Wrappers
  import opened JsValues
  import opened Props

  /** One intersection reported by the raycaster. */
  datatype Intersection = Intersection(obj: ObjId, distance: real)

  /** The raycaster's ordering promise: nearest first. */
  predicate SortedByDistance(hits: seq<Intersection>) {
    forall i, j | 0 <= i < j < |hits| :: hits[i].distance <= hits[j].distance
  }

  /**
    What the raycaster may report for `scene`: a list sorted by distance,
    and nothing at all when the scene has no children to test.
  */
  predicate RaycastOf(scene: Scene, hits: seq<Intersection>) {
    && SortedByDistance(hits)
    && (|scene| == 0 ==> |hits| == 0)
  }

  /**
    `intersects.length > 0 ? intersects[0].object : null`: the nearest
    object hit, or none.
  */
  function NearestHit(hits: seq<Intersection>): (r: Option<ObjId>)
    ensures r.None? <==> |hits| == 0
    ensures r.Some? ==> exists i | 0 <= i < |hits| :: hits[i].obj == r.value
    ensures r.Some? && SortedByDistance(hits) ==>
      exists i | 0 <= i < |hits| :: hits[i].obj == r.value &&
        forall j | 0 <= j < |hits| :: hits[i].distance <= hits[j].distance
  {
    if |hits| > 0 then Some(hits[0].obj) else None
  }

  // ---------------------------------------------------------------------------
  // Pointer state

  /** The canvas's bounding client rectangle. */
  datatype Rect = Rect(left: real, top: real, width: real, height: real)

  /** The pointer in normalised device coordinates. */
  datatype Pointer = Pointer(x: Num, y: Num)

  /**
    The mouse-move listener's update: client coordinates relative to the
    canvas rectangle, scaled onto [-1, 1], with y pointing up.
  */
  function NormalizePointer(clientX: real, clientY: real, rect: Rect): (r: Pointer)
    ensures r.x.Finite? <==> rect.width != 0.0
    ensures r.y.Finite? <==> rect.height != 0.0
    ensures r.x.Finite? ==> (r.x.value + 1.0) * rect.width == 2.0 * (clientX - rect.left)
    ensures r.y.Finite? ==> (1.0 - r.y.value) * rect.height == 2.0 * (clientY - rect.top)
    ensures rect.width == 0.0 ==> (r.x.NaN? <==> clientX == rect.left)
    ensures r.x.Infinity? ==> (r.x.negative <==> clientX < rect.left)
    ensures rect.height == 0.0 ==> (r.y.NaN? <==> clientY == rect.top)
    ensures r.y.Infinity? ==> (r.y.negative <==> clientY > rect.top)
  {
    var x := Div(Finite(clientX - rect.left), Finite(rect.width));
    var y := Div(Finite(clientY - rect.top), Finite(rect.height));
    Pointer(match x
            case Finite(v) => Finite(v * 2.0 - 1.0)
            case Infinity(neg) => Infinity(neg)
            case NaN => NaN,
            match y
            case Finite(v) => Finite(-v * 2.0 + 1.0)
            case Infinity(neg) => Infinity(!neg)
            case NaN => NaN)
  }

  /** Client coordinates of a normalised pointer: the inverse of `NormalizePointer`. */
  function ClientPoint(x: real, y: real, rect: Rect): (real, real) {
    (rect.left + (x + 1.0) * rect.width / 2.0, rect.top + (1.0 - y) * rect.height / 2.0)
  }

  /** Normalising and mapping back gives the client point again. */
  lemma NormalizeRoundTrip(clientX: real, clientY: real, rect: Rect)
    requires rect.width != 0.0 && rect.height != 0.0
    ensures var p := NormalizePointer(clientX, clientY, rect);
      p.x.Finite? && p.y.Finite? && ClientPoint(p.x.value, p.y.value, rect) == (clientX, clientY)
  {
    var p := NormalizePointer(clientX, clientY, rect);
    assert (p.x.value + 1.0) * rect.width / 2.0 == clientX - rect.left;
    assert (1.0 - p.y.value) * rect.height / 2.0 == clientY - rect.top;
    var c := ClientPoint(p.x.value, p.y.value, rect);
    assert c.0 == clientX && c.1 == clientY;
  }

  /**
    A point inside the rectangle lands in [-1, 1] on both axes: the left
    edge at x = -1, the right edge at x = 1, the top edge at y = 1 and the
    bottom edge at y = -1.
  */
  lemma NormalizeInside(clientX: real, clientY: real, rect: Rect)
    requires rect.width > 0.0 && rect.height > 0.0
    requires rect.left <= clientX <= rect.left + rect.width
    requires rect.top <= clientY <= rect.top + rect.height
    ensures var p := NormalizePointer(clientX, clientY, rect);
      && p.x.Finite? && -1.0 <= p.x.value <= 1.0
      && p.y.Finite? && -1.0 <= p.y.value <= 1.0
      && (clientX == rect.left ==> p.x.value == -1.0)
      && (clientX == rect.left + rect.width ==> p.x.value == 1.0)
      && (clientY == rect.top ==> p.y.value == 1.0)
      && (clientY == rect.top + rect.height ==> p.y.value == -1.0)
  {
    var p := NormalizePointer(clientX, clientY, rect);
    var u := (clientX - rect.left) / rect.width;
    var v := (clientY - rect.top) / rect.height;
    assert 0.0 <= u <= 1.0 by {
      assert u * rect.width == clientX - rect.left;
    }
    assert 0.0 <= v <= 1.0 by {
      assert v * rect.height == clientY - rect.top;
    }
    assert p.x.value == u * 2.0 - 1.0;
    assert p.y.value == -v * 2.0 + 1.0;
  }
}

=== FILE: hover.dfy ===
/**
  The hover state tracker: a two-state machine over the currently hovered
  object (`lastIntersectedObj`, `null` or an object) fed once per frame with
  the nearest hit of the pointer ray, or with no hit, and emitting an ordered
  list of `hoverEnd` / `hoverStart` events.

  The tracker is generic in the object type `O`; equality on `O` is
  JavaScript reference identity (`!==`).
*/
module Hover {
  import opened Wrappers

  datatype HoverEvent<O> = HoverStart(obj: O) | HoverEnd(obj: O)

  /** The hovered object after some frames, and the events those frames emitted. */
  datatype Transition<O> = Transition(hovered: Option<O>, events: seq<HoverEvent<O>>)

  /** The state the tracker is in after the event `e`. */
  function StateAfter<O>(e: HoverEvent<O>): Option<O> {
    match e
    case HoverStart(x) => Some(x)
    case HoverEnd(_) => None
  }

  /**
    The tracker's language: `t` is a run of the state machine from state `s`
    that ends in state `f`. A start is only possible with nothing hovered, an
    end only of the object that is hovered.
  */
  predicate Legal<O(==)>(s: Option<O>, t: seq<HoverEvent<O>>, f: Option<O>)
    decreases |t|
  {
    if |t| == 0 then s == f
    else
      && (match t[0]
          case HoverStart(_) => s.None?
          case HoverEnd(x) => s == Some(x))
      && Legal(StateAfter(t[0]), t[1..], f)
  }

  /**
    One frame of the tracker, given the nearest hit. A hit on a new object
    ends the old hover (if any) and then starts the new one; a miss ends the
    old hover (if any); a hit on the hovered object does nothing.
  */
  function Step<O(==)>(last: Option<O>, hit: Option<O>): (r: Transition<O>)
    ensures r.hovered == hit
    ensures r.events ==
      (if last.Some? && last != hit then [HoverEnd(last.value)] else []) +
      (if hit.Some? && last != hit then [HoverStart(hit.value)] else [])
    ensures |r.events| == 0 <==> last == hit
    ensures Legal(last, r.events, r.hovered)
  {
    match hit
    case Some(x) =>
      if last != Some(x) then
        match last
        case Some(y) => Transition(Some(x), [HoverEnd(y), HoverStart(x)])
        case None => Transition(Some(x), [HoverStart(x)])
      else
        Transition(last, [])
    case None =>
      if last.Some? then Transition(None, [HoverEnd(last.value)]) else Transition(None, [])
  }

  /** Runs of the machine compose. */
  lemma {:induction false} LegalAppend<O>(s: Option<O>, a: seq<HoverEvent<O>>, m: Option<O>,
                                          b: seq<HoverEvent<O>>, f: Option<O>)
    requires Legal(s, a, m) && Legal(m, b, f)
    ensures Legal(s, a + b, f)
    decreases |a|
  {
    if |a| == 0 {
      assert a + b == b;
    } else {
      assert (a + b)[0] == a[0];
      assert (a + b)[1..] == a[1..] + b;
      LegalAppend(StateAfter(a[0]), a[1..], m, b, f);
    }
  }

  /** The tracker over a sequence of frames, one nearest hit (or miss) per frame. */
  function Run<O(==)>(s: Option<O>, hits: seq<Option<O>>): (r: Transition<O>)
    ensures r.hovered == (if |hits| == 0 then s else hits[|hits| - 1])
    ensures Legal(s, r.events, r.hovered)
    decreases |hits|
  {
    if |hits| == 0 then
      Transition(s, [])
    else
      var first := Step(s, hits[0]);
      var rest := Run(first.hovered, hits[1..]);
      LegalAppend(s, first.events, first.hovered, rest.events, rest.hovered);
      Transition(rest.hovered, first.events + rest.events)
  }

  /**
    The shape of an event trace, index by index: the first event fits the
    starting state, a start always follows an end (never two starts in a
    row), and an end always names the object of the start just before it.
  */
  predicate Alternating<O(==)>(s: Option<O>, t: seq<HoverEvent<O>>) {
    && (|t| > 0 && t[0].HoverStart? ==> s.None?)
    && (|t| > 0 && t[0].HoverEnd? ==> s == Some(t[0].obj))
    && (forall i | 0 < i < |t| :: t[i].HoverStart? ==> t[i - 1].HoverEnd?)
    && (forall i | 0 < i < |t| :: t[i].HoverEnd? ==> t[i - 1] == HoverStart(t[i].obj))
  }

  /** The state a trace leaves the tracker in, read off its last event. */
  function FinalState<O>(s: Option<O>, t: seq<HoverEvent<O>>): Option<O> {
    if |t| == 0 then s else StateAfter(t[|t| - 1])
  }

  /** The machine's runs are exactly the alternating traces, ending where their last event says. */
  lemma {:induction false} LegalIffAlternating<O>(s: Option<O>, t: seq<HoverEvent<O>>, f: Option<O>)
    ensures Legal(s, t, f) <==> Alternating(s, t) && f == FinalState(s, t)
    decreases |t|
  {
    if |t| > 0 {
      var next := StateAfter(t[0]);
      var tail := t[1..];
      LegalIffAlternating(next, tail, f);
      assert FinalState(next, tail) == FinalState(s, t) by {
        if |tail| > 0 { assert tail[|tail| - 1] == t[|t| - 1]; }
      }
      assert Alternating(s, t) <==> (Alternating(next, tail) && Legal(s, [t[0]], next)) by {
        AlternatingSplit(s, t);
      }
    }
  }

  /** An alternating trace is its first event followed by an alternating trace from the next state. */
  lemma AlternatingSplit<O>(s: Option<O>, t: seq<HoverEvent<O>>)
    requires |t| > 0
    ensures Alternating(s, t) <==> (Alternating(StateAfter(t[0]), t[1..]) && Legal(s, [t[0]], StateAfter(t[0])))
  {
    var next := StateAfter(t[0]);
    var tail := t[1..];
    assert [t[0]][1..] == [];
    if Alternating(s, t) {
      forall i | 0 < i < |tail|
        ensures tail[i].HoverStart? ==> tail[i - 1].HoverEnd?
        ensures tail[i].HoverEnd? ==> tail[i - 1] == HoverStart(tail[i].obj)
      {
        assert tail[i] == t[i + 1] && tail[i - 1] == t[i];
      }
      if |tail| > 0 {
        assert tail[0] == t[1];
      }
    }
    if Alternating(next, tail) && Legal(s, [t[0]], next) {
      forall i | 0 < i < |t|
        ensures t[i].HoverStart? ==> t[i - 1].HoverEnd?
        ensures t[i].HoverEnd? ==> t[i - 1] == HoverStart(t[i].obj)
      {
        assert t[i] == tail[i - 1];
        if i > 1 {
          assert t[i - 1] == tail[i - 2];
        }
      }
    }
  }

  /**
    Over any sequence of frames starting with nothing hovered, the tracker's
    events alternate start/end, never two starts in a row, and every end
    names the object of the start just before it; the tracker ends on the
    last frame's hit.
  */
  lemma RunAlternates<O>(hits: seq<Option<O>>)
    ensures var r := Run(None, hits);
      && Alternating(None, r.events)
      && (|r.events| > 0 ==> r.events[0].HoverStart?)
      && r.hovered == FinalState(None, r.events)
  {
    var r := Run(None, hits);
    LegalIffAlternating(None, r.events, r.hovered);
  }
}

=== FILE: js_values.dfy ===
/**
  The slice of JavaScript value semantics the viewport component relies on:
  truthiness of optional props, arithmetic that can leave the finite reals,
  and the string-to-number conversions `parseInt(s, 10)` and `parseFloat(s)`
  (section 19.2 of ECMA-262) applied to the `percentageWidth` prop.

  Numbers are exact reals; IEEE-754 rounding is not modelled.
*/
module JsValues {
  import opened Wrappers

  /** A JavaScript number: a finite value, an infinity with its sign, or
      `NaN` (which `undefined` also becomes in arithmetic). Negative zero
      is not told apart from zero. */
  datatype Num = Finite(value: real) | Infinity(negative: bool) | NaN

  /** `if (o)` on an optional numeric prop: `undefined` and `0` are falsy. */
  predicate NumTruthy(o: Option<real>) {
    o.Some? && o.value != 0.0
  }

  /** `if (o)` on an optional string prop: `undefined` and `""` are falsy. */
  predicate StrTruthy(o: Option<string>) {
    o.Some? && o.value != ""
  }

  /** Reading an optional numeric prop as a number: `undefined` is `NaN` in arithmetic. */
  function OrUndefined(o: Option<real>): (r: Num)
    ensures r.Finite? <==> o.Some?
    ensures r.Finite? ==> r.value == o.value
    ensures r.NaN? <==> o.None?
  {
    match o
    case Some(v) => Finite(v)
    case None => NaN
  }

  /** The sign an infinite product or quotient inherits from an operand
      (zero counts as positive). */
  predicate Negative(n: Num) {
    match n
    case Finite(v) => v < 0.0
    case Infinity(neg) => neg
    case NaN => false
  }

  /** A finite zero. */
  predicate IsZero(n: Num) {
    n.Finite? && n.value == 0.0
  }

  /**
    JavaScript `a * b` (section 6.1.6.1.4 of ECMA-262): `NaN` absorbs, zero
    times an infinity is `NaN`, any other product with an infinity is the
    infinity whose sign is the product of the signs.
  */
  function Mul(a: Num, b: Num): (r: Num)
    ensures r.Finite? <==> a.Finite? && b.Finite?
    ensures r.Finite? ==> r.value == a.value * b.value
    ensures r.NaN? <==> a.NaN? || b.NaN? || (IsZero(a) && b.Infinity?) || (a.Infinity? && IsZero(b))
    ensures r.Infinity? ==> (r.negative <==> Negative(a) != Negative(b))
  {
    if a.NaN? || b.NaN? then NaN
    else if a.Finite? && b.Finite? then Finite(a.value * b.value)
    else if IsZero(a) || IsZero(b) then NaN
    else Infinity(Negative(a) != Negative(b))
  }

  /**
    JavaScript `a / b` (section 6.1.6.1.5 of ECMA-262): `NaN` absorbs, as do
    `0 / 0` and an infinity over an infinity; a finite value over an
    infinity is zero; a non-zero value over zero, or an infinity over a
    finite value, is the infinity whose sign is the quotient of the signs.
  */
  function Div(a: Num, b: Num): (r: Num)
    ensures r.Finite? <==> a.Finite? && (b.Infinity? || (b.Finite? && b.value != 0.0))
    ensures r.Finite? && b.Finite? ==> r.value * b.value == a.value
    ensures r.Finite? && b.Infinity? ==> r.value == 0.0
    ensures r.NaN? <==> a.NaN? || b.NaN? || (a.Infinity? && b.Infinity?) || (IsZero(a) && IsZero(b))
    ensures r.Infinity? ==> (r.negative <==> Negative(a) != Negative(b))
  {
    if a.NaN? || b.NaN? then NaN
    else if a.Infinity? && b.Infinity? then NaN
    else if b.Infinity? then Finite(0.0)
    else if a.Infinity? then Infinity(Negative(a) != Negative(b))
    else if b.value != 0.0 then Finite(a.value / b.value)
    else if a.value == 0.0 then NaN
    else Infinity(a.value < 0.0)
  }

  // ---------------------------------------------------------------------------
  // Characters

  /** WhiteSpace and LineTerminator code points, which both conversions skip. */
  predicate IsSpace(c: char) {
    || c == '\t' || c == '\n' || c == '\U{B}' || c == '\U{C}' || c == '\r' || c == ' '
    || c == '\U{A0}' || c == '\U{1680}' || ('\U{2000}' <= c <= '\U{200A}')
    || c == '\U{2028}' || c == '\U{2029}' || c == '\U{202F}' || c == '\U{205F}'
    || c == '\U{3000}' || c == '\U{FEFF}'
  }

  predicate IsDigit(c: char) {
    '0' <= c <= '9'
  }

  predicate AllDigits(s: string) {
    forall i | 0 <= i < |s| :: IsDigit(s[i])
  }

  function DigitValue(c: char): (d: nat)
    requires IsDigit(c)
    ensures d < 10
  {
    (c as int - '0' as int) as nat
  }

  function DigitChar(d: nat): (c: char)
    requires d < 10
    ensures IsDigit(c) && DigitValue(c) == d
  {
    (d + '0' as int) as char
  }

  // ---------------------------------------------------------------------------
  // Scanning

  /** Drops the leading white space of `s` (see `TrimStartSuffix`). */
  function TrimStart(s: string): (r: string)
    ensures |r| <= |s|
    ensures forall i | 0 <= i < |s| - |r| :: IsSpace(s[i])
    ensures |r| > 0 ==> !IsSpace(r[0])
  {
    if |s| > 0 && IsSpace(s[0]) then TrimStart(s[1..]) else s
  }

  /** What `TrimStart` leaves is the rest of `s`, unchanged. */
  lemma {:induction false} TrimStartSuffix(s: string)
    ensures TrimStart(s) == s[|s| - |TrimStart(s)|..]
  {
    if |s| > 0 && IsSpace(s[0]) {
      TrimStartSuffix(s[1..]);
      assert s[1..][|s| - 1 - |TrimStart(s)|..] == s[|s| - |TrimStart(s)|..];
    }
  }

  /** Length of the run of decimal digits at the start of `s`. */
  function DigitRun(s: string): (n: nat)
    ensures n <= |s|
    ensures AllDigits(s[..n])
    ensures n < |s| ==> !IsDigit(s[n])
  {
    if |s| > 0 && IsDigit(s[0]) then
      var k := DigitRun(s[1..]);
      assert s[..k + 1] == [s[0]] + s[1..][..k];
      k + 1
    else
      0
  }

  /** An optional leading sign, split off. */
  datatype Signed = Signed(negative: bool, rest: string)

  function SplitSign(s: string): (r: Signed)
    ensures r.rest == (if |s| > 0 && (s[0] == '+' || s[0] == '-') then s[1..] else s)
    ensures r.negative <==> |s| > 0 && s[0] == '-'
  {
    if |s| > 0 && s[0] == '-' then Signed(true, s[1..])
    else if |s| > 0 && s[0] == '+' then Signed(false, s[1..])
    else Signed(false, s)
  }

  predicate StartsWith(s: string, prefix: string) {
    |prefix| <= |s| && s[..|prefix|] == prefix
  }

  // ---------------------------------------------------------------------------
  // Decimal numerals

  /** The value of a string of decimal digits, most significant first. */
  function DigitsValue(ds: string): nat
    requires AllDigits(ds)
    decreases |ds|
  {
    if |ds| == 0 then 0 else 10 * DigitsValue(ds[..|ds| - 1]) + DigitValue(ds[|ds| - 1])
  }

  /** The shortest decimal numeral of `n`; reading it back gives `n`. */
  function Decimal(n: nat): (r: string)
    ensures |r| > 0 && AllDigits(r)
    ensures DigitsValue(r) == n
    ensures |r| > 1 ==> r[0] != '0'
  {
    if n < 10 then
      [DigitChar(n)]
    else
      var d := Decimal(n / 10);
      var r := d + [DigitChar(n % 10)];
      assert r[..|r| - 1] == d;
      r
  }

  /** The value of the digits after a decimal point: `0.ds`. */
  function FractionValue(ds: string): (r: real)
    requires AllDigits(ds)
    ensures 0.0 <= r < 1.0
    decreases |ds|
  {
    if |ds| == 0 then 0.0 else (DigitValue(ds[0]) as real + FractionValue(ds[1..])) / 10.0
  }

  /** `m` times ten to the power `e`. */
  function Scale(m: real, e: int): (r: real)
    ensures m >= 0.0 ==> r >= 0.0
    decreases if e >= 0 then e else -e
  {
    if e == 0 then m else if e > 0 then 10.0 * Scale(m, e - 1) else Scale(m, e + 1) / 10.0
  }

  // ---------------------------------------------------------------------------
  // The conversions; a `None` from `ParseInt` stands for `NaN`.

  /** `parseInt(s, 10)`: optional white space, optional sign, then the longest
      run of decimal digits; anything after it is ignored. No digits: `NaN`. */
  function ParseInt(s: string): (r: Option<int>)
    ensures var b := SplitSign(TrimStart(s)).rest;
      r.None? <==> |b| == 0 || !IsDigit(b[0])
    ensures r.Some? && r.value < 0 ==> SplitSign(TrimStart(s)).negative
    ensures r.Some? && r.value > 0 ==> !SplitSign(TrimStart(s)).negative
  {
    var signed := SplitSign(TrimStart(s));
    var k := DigitRun(signed.rest);
    if k == 0 then None
    else
      var m: int := DigitsValue(signed.rest[..k]);
      Some(if signed.negative then -m else m)
  }

  /** The exponent part `e[+-]digits` at the start of `s`, or 0 when there is no
      well-formed one (parseFloat then stops before the `e`). */
  function ExponentOf(s: string): int {
    if |s| > 0 && (s[0] == 'e' || s[0] == 'E') then
      var signed := SplitSign(s[1..]);
      var k := DigitRun(signed.rest);
      if k == 0 then 0
      else
        var m: int := DigitsValue(signed.rest[..k]);
        if signed.negative then -m else m
    else
      0
  }

  /** `parseFloat(s)`: optional white space, optional sign, then the longest
      prefix that is `Infinity` or a decimal literal `digits[.digits][e[+-]digits]`
      (`.digits` alone also counts). No such prefix: `NaN`. */
  function ParseFloat(s: string): (r: Num)
    ensures var b := SplitSign(TrimStart(s)).rest;
      r.Infinity? <==> StartsWith(b, "Infinity")
    ensures r.Infinity? ==> r.negative == SplitSign(TrimStart(s)).negative
    ensures var b := SplitSign(TrimStart(s)).rest;
      r.NaN? <==>
        && !StartsWith(b, "Infinity")
        && !(|b| > 0 && IsDigit(b[0]))
        && !(|b| > 1 && b[0] == '.' && IsDigit(b[1]))
    ensures r.Finite? && r.value < 0.0 ==> SplitSign(TrimStart(s)).negative
  {
    var signed := SplitSign(TrimStart(s));
    var body := signed.rest;
    if StartsWith(body, "Infinity") then Infinity(signed.negative)
    else
      var k := DigitRun(body);
      var afterInt := body[k..];
      var hasDot := |afterInt| > 0 && afterInt[0] == '.';
      var tail := if hasDot then afterInt[1..] else "";
      var f := DigitRun(tail);
      if k == 0 && f == 0 then NaN
      else
        var rest := if hasDot then tail[f..] else afterInt;
        var mantissa := DigitsValue(body[..k]) as real + FractionValue(tail[..f]);
        var m := Scale(mantissa, ExponentOf(rest));
        Finite(if signed.negative then -m else m)
  }

  // ---------------------------------------------------------------------------
  // Properties of the conversions

  predicate AllSpace(s: string) {
    forall i | 0 <= i < |s| :: IsSpace(s[i])
  }

  /** Leading white space is skipped and nothing else is. */
  lemma {:induction false} TrimStartSpaces(ws: string, s: string)
    requires AllSpace(ws)
    requires |s| == 0 || !IsSpace(s[0])
    ensures TrimStart(ws + s) == s
    decreases |ws|
  {
    if |ws| > 0 {
      assert (ws + s)[1..] == ws[1..] + s;
      TrimStartSpaces(ws[1..], s);
    } else {
      assert ws + s == s;
    }
  }

  /** A digit run stops at the first non-digit. */
  lemma {:induction false} DigitRunStops(s: string, j: nat)
    requires j < |s| && !IsDigit(s[j])
    ensures DigitRun(s) <= j
  {
    if j > 0 && IsDigit(s[0]) {
      DigitRunStops(s[1..], j - 1);
    }
  }

  /** A digit run extends over every leading digit. */
  lemma {:induction false} DigitRunCovers(s: string, j: nat)
    requires j <= |s| && AllDigits(s[..j])
    ensures DigitRun(s) >= j
  {
    if j > 0 {
      assert IsDigit(s[..j][0]);
      assert s[1..][..j - 1] == s[..j][1..];
      DigitRunCovers(s[1..], j - 1);
    }
  }

  /** The digit run of a numeral followed by a non-digit is the numeral. */
  lemma DigitRunNumeral(n: nat, suffix: string)
    requires |suffix| == 0 || !IsDigit(suffix[0])
    ensures DigitRun(Decimal(n) + suffix) == |Decimal(n)|
    ensures (Decimal(n) + suffix)[..|Decimal(n)|] == Decimal(n)
    ensures (Decimal(n) + suffix)[|Decimal(n)|..] == suffix
  {
    var d := Decimal(n);
    var s := d + suffix;
    assert s[..|d|] == d;
    DigitRunCovers(s, |d|);
    if |suffix| > 0 {
      assert s[|d|] == suffix[0];
      DigitRunStops(s, |d|);
    }
  }

  /** `parseInt` reads back any decimal numeral, after optional white space
      and sign, whatever follows the digits ("100%" gives 100). */
  lemma ParseIntNumeral(ws: string, sign: string, n: nat, suffix: string)
    requires AllSpace(ws)
    requires sign == "" || sign == "+" || sign == "-"
    requires |suffix| == 0 || !IsDigit(suffix[0])
    ensures ParseInt(ws + sign + Decimal(n) + suffix) == Some(if sign == "-" then -(n as int) else n)
  {
    var d := Decimal(n);
    var signed := Signed(sign == "-", d + suffix);
    NumeralScan(ws, sign, n, suffix);
    ParseIntOf(ws + sign + d + suffix, signed, |d|, n);
  }

  /** How both conversions scan a numeral after white space and a sign. */
  lemma NumeralScan(ws: string, sign: string, n: nat, suffix: string)
    requires AllSpace(ws)
    requires sign == "" || sign == "+" || sign == "-"
    requires |suffix| == 0 || !IsDigit(suffix[0])
    ensures SplitSign(TrimStart(ws + sign + Decimal(n) + suffix)) == Signed(sign == "-", Decimal(n) + suffix)
    ensures DigitRun(Decimal(n) + suffix) == |Decimal(n)|
    ensures (Decimal(n) + suffix)[..|Decimal(n)|] == Decimal(n)
  {
    var d := Decimal(n);
    var body := d + suffix;
    var t := sign + body;
    assert ws + sign + d + suffix == ws + t;
    SignThenDigit(sign, body);
    TrimStartSpaces(ws, t);
    DigitRunNumeral(n, suffix);
  }

  /** An optional sign followed by a digit: the sign is split off whole. */
  lemma SignThenDigit(sign: string, body: string)
    requires sign == "" || sign == "+" || sign == "-"
    requires |body| > 0 && IsDigit(body[0])
    ensures SplitSign(sign + body) == Signed(sign == "-", body)
    ensures !IsSpace((sign + body)[0])
  {
    if sign == "" {
      assert sign + body == body;
    } else {
      assert (sign + body)[0] == sign[0];
      assert (sign + body)[1..] == body;
    }
  }

  /** `parseInt` once its scan is known. */
  lemma ParseIntOf(s: string, signed: Signed, k: nat, m: nat)
    requires SplitSign(TrimStart(s)) == signed
    requires 0 < k == DigitRun(signed.rest)
    requires DigitsValue(signed.rest[..k]) == m
    ensures ParseInt(s) == Some(if signed.negative then -(m as int) else m)
  {
  }

  /** With nothing numeric at its head the string parses to `NaN`. */
  lemma ParseIntNaN(s: string)
    requires |s| > 0 && !IsSpace(s[0]) && !IsDigit(s[0]) && s[0] != '+' && s[0] != '-'
    ensures ParseInt(s) == None
  {
    assert TrimStart(s) == s;
  }

  /** `parseFloat` reads back a decimal numeral followed by anything that does
      not continue a decimal literal, and then agrees with `parseInt`. */
  lemma ParseFloatNumeral(n: nat, suffix: string)
    requires |suffix| == 0 || (!IsDigit(suffix[0]) && suffix[0] != '.' && suffix[0] != 'e' && suffix[0] != 'E')
    ensures ParseFloat(Decimal(n) + suffix) == Finite(n as real)
  {
    var s := Decimal(n) + suffix;
    TrimStartSpaces("", s);
    assert "" + s == s;
    assert SplitSign(s) == Signed(false, s);
    DigitRunNumeral(n, suffix);
    NotInfinity(s);
    ParseFloatIntegral(s, |Decimal(n)|, n, suffix);
  }

  lemma NotInfinity(s: string)
    requires |s| > 0 && s[0] != 'I'
    ensures !StartsWith(s, "Infinity")
  {
    if |s| >= 8 {
      assert s[..8][0] == s[0];
      assert "Infinity"[0] == 'I';
    }
  }

  /** `parseFloat` of an unsigned integer numeral with no fraction or exponent. */
  lemma ParseFloatIntegral(s: string, k: nat, n: nat, rest: string)
    requires SplitSign(TrimStart(s)) == Signed(false, s)
    requires !StartsWith(s, "Infinity")
    requires 0 < k == DigitRun(s) && s[..k] == Decimal(n) && s[k..] == rest
    requires |rest| == 0 || (rest[0] != '.' && rest[0] != 'e' && rest[0] != 'E')
    ensures ParseFloat(s) == Finite(n as real)
  {
    assert DigitRun("") == 0;
    assert ExponentOf(rest) == 0;
  }

  /** `parseFloat` reads back a decimal fraction `n.ds`, after optional white
      space and plus sign, followed by anything that does not continue it
      ("12.5%" gives 12.5). */
  lemma ParseFloatDecimal(ws: string, sign: string, n: nat, ds: string, suffix: string)
    requires AllSpace(ws)
    requires sign == "" || sign == "+"
    requires |ds| > 0 && AllDigits(ds)
    requires |suffix| == 0 || (!IsDigit(suffix[0]) && suffix[0] != 'e' && suffix[0] != 'E')
    ensures ParseFloat(ws + sign + Decimal(n) + ("." + ds + suffix)) == Finite(n as real + FractionValue(ds))
  {
    var body := Decimal(n) + ("." + ds + suffix);
    NumeralScan(ws, sign, n, "." + ds + suffix);
    DecimalBodyScan(n, ds, suffix);
    FractionScan(ds, suffix);
    ParseFloatFraction(ws + sign + Decimal(n) + ("." + ds + suffix), body, |Decimal(n)|, ds + suffix, |ds|, suffix);
  }

  /** The point after the integer digits of `n.ds`, and no "Infinity". */
  lemma DecimalBodyScan(n: nat, ds: string, suffix: string)
    ensures var body := Decimal(n) + ("." + ds + suffix);
      && body[|Decimal(n)|] == '.' && body[|Decimal(n)| + 1..] == ds + suffix
      && !StartsWith(body, "Infinity")
  {
    var d := Decimal(n);
    var tail := "." + ds + suffix;
    assert (d + tail)[|d|] == tail[0];
    assert (d + tail)[|d| + 1..] == tail[1..];
    NotInfinity(d + tail);
  }

  /** The fraction digits of a literal, then a suffix with no exponent. */
  lemma FractionScan(ds: string, suffix: string)
    requires |ds| > 0 && AllDigits(ds)
    requires |suffix| == 0 || (!IsDigit(suffix[0]) && suffix[0] != 'e' && suffix[0] != 'E')
    ensures DigitRun(ds + suffix) == |ds|
    ensures (ds + suffix)[..|ds|] == ds && (ds + suffix)[|ds|..] == suffix
    ensures ExponentOf(suffix) == 0
  {
    var tail := ds + suffix;
    assert tail[..|ds|] == ds;
    DigitRunCovers(tail, |ds|);
    if |suffix| > 0 {
      assert tail[|ds|] == suffix[0];
      DigitRunStops(tail, |ds|);
    }
  }

  /** The two conversions part ways on a fractional percentage: "12.5%". */
  lemma ParseIntTruncatesFraction(s: string)
    requires s == "12.5%"
    ensures ParseInt(s) == Some(12)
    ensures ParseFloat(s) == Finite(12.5)
  {
    assert Decimal(1) == "1";
    assert Decimal(12) == "12";
    assert "" + "" + "12" + ".5%" == s;
    ParseIntNumeral("", "", 12, ".5%");
    ParseFloatTwelveAndHalf(s);
  }

  /** `parseFloat("12.5%")` reads the fraction. */
  lemma ParseFloatTwelveAndHalf(s: string)
    requires s == "12.5%"
    ensures ParseFloat(s) == Finite(12.5)
  {
    TwelveAndHalfScan(s);
    ParseFloatFraction(s, s, 2, s[3..], 1, s[3..][1..]);
    assert DigitsValue(s[..2]) == 12 by {
      assert s[..2] == "12" && "12"[..1] == "1";
    }
    assert FractionValue(s[3..][..1]) == 0.5 by {
      assert s[3..][..1] == "5" && "5"[1..] == "";
    }
  }

  /** How `parseFloat` scans "12.5%": two integer digits, a point, one
      fraction digit, and no exponent. */
  lemma TwelveAndHalfScan(s: string)
    requires s == "12.5%"
    ensures SplitSign(TrimStart(s)) == Signed(false, s)
    ensures !StartsWith(s, "Infinity")
    ensures DigitRun(s) == 2 && s[2] == '.'
    ensures DigitRun(s[3..]) == 1 && ExponentOf(s[3..][1..]) == 0
  {
    assert SplitSign(TrimStart(s)) == Signed(false, s) by {
      assert !IsSpace(s[0]);
      assert TrimStart(s) == s;
    }
    assert !StartsWith(s, "Infinity") by { NotInfinity(s); }
    assert DigitRun(s) == 2 by {
      assert DigitRun(s[2..]) == 0;
      assert s[1..][1..] == s[2..];
    }
    assert DigitRun(s[3..]) == 1 by {
      assert s[3..][1..] == "%";
    }
    assert ExponentOf(s[3..][1..]) == 0 by {
      assert s[3..][1..] == "%";
    }
  }

  /** `parseFloat` of an unsigned numeral with a fraction and no exponent,
      once its scan is known. */
  lemma ParseFloatFraction(s: string, body: string, k: nat, tail: string, f: nat, rest: string)
    requires SplitSign(TrimStart(s)) == Signed(false, body)
    requires !StartsWith(body, "Infinity")
    requires k == DigitRun(body) && k < |body| && body[k] == '.' && body[k + 1..] == tail
    requires 0 < f == DigitRun(tail) && tail[f..] == rest
    requires ExponentOf(rest) == 0
    ensures ParseFloat(s) == Finite(DigitsValue(body[..k]) as real + FractionValue(tail[..f]))
  {
    assert body[k..][1..] == tail;
  }
}

=== FILE: lifecycle.dfy ===
/**
  Scene lifecycle: creating the viewport's state, populating a scene with
  the default grid, plane, controls and lights and then the caller's
  `setup`, reloading and clearing the scene, and re-sizing on resize.
*/
module Lifecycle {
  import opened Wrappers
  import opened Props
  import opened Sizing

  /** Orbit controls as the component configures them, and whether they
      report angle changes back through `onUpdateAngles`. */
  datatype Controls = Controls(enablePan: bool, enableZoom: bool, enableKeys: bool, reportsAngles: bool)

  /**
    The component's live state: the scene, the orbit controls (`null` until
    created), whether a camera exists, the hovered object
    (`lastIntersectedObj`) and what sizing last wrote.
  */
  datatype Runtime = Runtime(
    scene: Scene,
    controls: Option<Controls>,
    cameraPresent: bool,
    hover: Option<ObjId>,
    view: View)

  /** A new runtime state, and the errors handed to the `onError` prop on the way there. */
  datatype Updated = Updated(rt: Runtime, reported: seq<Error>)

  /** `x !== undefined ? x : true`. */
  function DefaultTrue(o: Option<bool>): (b: bool)
    ensures b <==> o != Some(false)
  {
    o.GetOr(true)
  }

  /** The objects population adds before `setup` runs: grid and shadow
      plane unless `addGrid` is explicitly falsy, then ambient and spot
      light unless `addLight` is explicitly falsy. */
  function DefaultObjects(p: Props): Scene {
    (if DefaultTrue(p.addGrid) then [Grid, ShadowPlane] else []) +
    (if DefaultTrue(p.addLight) then [AmbientLight, SpotLight] else [])
  }

  /** Orbit controls with pan, zoom and keys each on unless explicitly set. */
  function NewControls(p: Props): (c: Controls)
    ensures c.enablePan <==> p.enablePan != Some(false)
    ensures c.enableZoom <==> p.enableZoom != Some(false)
    ensures c.enableKeys <==> p.enableKeys != Some(false)
    ensures c.reportsAngles == p.onUpdateAngles
  {
    Controls(DefaultTrue(p.enablePan), DefaultTrue(p.enableZoom), DefaultTrue(p.enableKeys), p.onUpdateAngles)
  }

  /** The component's `onError`: forwards to the `onError` prop when one is
      set, and drops the error otherwise. */
  function Report(p: Props, e: Error): (r: seq<Error>)
    ensures r == [e] <==> p.onError
    ensures r == [] <==> !p.onError
  {
    if p.onError then [e] else []
  }

  /** A caller callback run inside `try`/`catch`: the scene it leaves, and
      the error it threw, if any, as reported. */
  function Guarded(p: Props, f: Callback, scene: Scene): (r: (Scene, seq<Error>))
    ensures r.0 == f(scene).scene
    ensures f(scene).Returned? ==> r.1 == []
    ensures f(scene).Threw? ==> r.1 == Report(p, f(scene).error)
  {
    match f(scene)
    case Returned(s) => (s, [])
    case Threw(s, e) => (s, Report(p, e))
  }

  /** The result of `_createScene`: the scene, the controls, and what went to `onError`. */
  datatype Populated = Populated(scene: Scene, controls: Option<Controls>, reported: seq<Error>)

  /**
    `_createScene` run on `scene` with the current `controls`. The defaults
    are appended after what the scene already holds; controls are replaced
    only when `addControls` is truthy; `setup` then sees the populated
    scene, and an error it throws is caught and reported.
  */
  function Populate(p: Props, scene: Scene, controls: Option<Controls>): (r: Populated)
    ensures p.setup.None? ==> r.scene == scene + DefaultObjects(p) && r.reported == []
    ensures p.setup.Some? ==> r.scene == p.setup.value(scene + DefaultObjects(p)).scene
    ensures p.setup.Some? ==>
      r.reported == (match p.setup.value(scene + DefaultObjects(p))
                     case Returned(_) => []
                     case Threw(_, e) => Report(p, e))
    ensures r.controls == (if p.addControls then Some(NewControls(p)) else controls)
  {
    var withGrid := if DefaultTrue(p.addGrid) then scene + [Grid, ShadowPlane] else scene;
    var controls' := if p.addControls then Some(NewControls(p)) else controls;
    var withLight := if DefaultTrue(p.addLight) then withGrid + [AmbientLight, SpotLight] else withGrid;
    assert withLight == scene + DefaultObjects(p);
    match p.setup
    case None => Populated(withLight, controls', [])
    case Some(f) =>
      var (scene', reported) := Guarded(p, f, withLight);
      Populated(scene', controls', reported)
  }

  /**
    `reloadScene(newScene)`: installs `newScene`, or a fresh empty scene
    when none is given, populates it without disposing anything, and
    re-applies the sizing.
  */
  function Reload(p: Props, rt: Runtime, newScene: Option<Scene>, win: Window): (r: Updated)
    ensures var pop := Populate(p, newScene.GetOr([]), rt.controls);
      r.rt.scene == pop.scene && r.rt.controls == pop.controls && r.reported == pop.reported
    ensures r.rt.view == ApplyDimensions(p, win)
    ensures r.rt.hover == rt.hover && r.rt.cameraPresent == rt.cameraPresent
  {
    var scene := if newScene.Some? then newScene.value else [];
    var pop := Populate(p, scene, rt.controls);
    Updated(rt.(scene := pop.scene, controls := pop.controls, view := ApplyDimensions(p, win)), pop.reported)
  }

  /**
    `clearScene()`: removes every object from the scene (disposing their
    resources), installs a fresh scene, and reloads.
  */
  function Clear(p: Props, rt: Runtime, win: Window): (r: Updated)
    ensures r == Reload(p, rt, None, win)
  {
    var emptied := rt.(scene := []);
    Reload(p, emptied, None, win)
  }

  /** The window `resize` handler: only the sizing changes. */
  function Resize(p: Props, rt: Runtime, win: Window): (r: Runtime)
    ensures r.view == ApplyDimensions(p, win)
    ensures r.scene == rt.scene && r.controls == rt.controls && r.hover == rt.hover
    ensures r.cameraPresent == rt.cameraPresent
  {
    rt.(view := ApplyDimensions(p, win))
  }

  /**
    `init` up to the first frame: a camera sized by `getSize`, a fresh
    scene populated as above, no controls before population. The hovered
    object is `inherited`: `lastIntersectedObj` lives at module level, is
    `null` only when the module loads, and neither `init` nor unmounting
    resets it, so a component mounted after another one was unmounted
    while hovering starts out hovering that object.
  */
  function Initialize(p: Props, win: Window, inherited: Option<ObjId>): (r: Updated)
    ensures r.rt.cameraPresent && r.rt.hover == inherited
    ensures r.rt.view == InitialView(p, win)
    ensures var pop := Populate(p, [], None);
      r.rt.scene == pop.scene && r.rt.controls == pop.controls && r.reported == pop.reported
  {
    var pop := Populate(p, [], None);
    Updated(Runtime(pop.scene, pop.controls, true, inherited, InitialView(p, win)), pop.reported)
  }

  // ---------------------------------------------------------------------------
  // Properties

  /** The defaults, by kind and order: grid and plane exactly when `addGrid`
      is not explicitly falsy, lights exactly when `addLight` is not, grid
      before lights, and never a caller's object. */
  lemma DefaultObjectsShape(p: Props)
    ensures var d := DefaultObjects(p);
      && (Grid in d <==> p.addGrid != Some(false))
      && (ShadowPlane in d <==> p.addGrid != Some(false))
      && (AmbientLight in d <==> p.addLight != Some(false))
      && (SpotLight in d <==> p.addLight != Some(false))
      && (forall i | 0 <= i < |d| :: !d[i].UserObject?)
      && (forall i, j | 0 <= i < |d| && 0 <= j < |d| && d[i] == SpotLight && d[j] == Grid :: j < i)
  {
  }

  /** Population on an empty scene with nothing in `setup` gives exactly the defaults. */
  lemma PopulateEmpty(p: Props, controls: Option<Controls>)
    requires p.setup.None?
    ensures Populate(p, [], controls).scene == DefaultObjects(p)
  {
    assert [] + DefaultObjects(p) == DefaultObjects(p);
  }

  /**
    `clearScene()` and `reloadScene()` leave the same scene, whatever the
    scene was before: the default population of an empty scene followed by
    what `setup` does to it.
  */
  lemma ClearMatchesReload(p: Props, rt: Runtime, other: Runtime, win: Window)
    requires rt.controls == other.controls
    ensures Clear(p, rt, win).rt.scene == Reload(p, other, None, win).rt.scene
    ensures Clear(p, rt, win).rt.scene == Populate(p, [], rt.controls).scene
  {
  }

  /** After `clearScene()` with no `setup`, nothing of the old scene is left:
      the scene holds the defaults and nothing else. */
  lemma ClearLeavesOnlyDefaults(p: Props, rt: Runtime, win: Window)
    requires p.setup.None?
    ensures Clear(p, rt, win).rt.scene == DefaultObjects(p)
    ensures forall o | o in rt.scene && o.UserObject? :: o !in Clear(p, rt, win).rt.scene
  {
    PopulateEmpty(p, rt.controls);
    DefaultObjectsShape(p);
  }

  /** `reloadScene(s)` keeps the contents of `s`: with no `setup` the new
      scene is `s` followed by the defaults. */
  lemma ReloadAppendsDefaults(p: Props, rt: Runtime, s: Scene, win: Window)
    requires p.setup.None?
    ensures var scene := Reload(p, rt, Some(s), win).rt.scene;
      scene[..|s|] == s && scene[|s|..] == DefaultObjects(p)
  {
  }

  /** A `setup` that throws has its error reported once when `onError` is
      set, and dropped otherwise; population finishes either way. */
  lemma SetupErrorReported(p: Props, scene: Scene, controls: Option<Controls>)
    requires p.setup.Some? && p.setup.value(scene + DefaultObjects(p)).Threw?
    ensures var r := Populate(p, scene, controls);
      && (p.onError ==> r.reported == [p.setup.value(scene + DefaultObjects(p)).error])
      && (!p.onError ==> r.reported == [])
      && r.scene == p.setup.value(scene + DefaultObjects(p)).scene
  {
  }

  /** Clearing the scene does not reset the hovered object. */
  lemma ClearKeepsHover(p: Props, rt: Runtime, win: Window)
    ensures Clear(p, rt, win).rt.hover == rt.hover
  {
  }
}

=== FILE: props.dfy ===
/**
  The inputs of the `Container3d` viewport component: its props record, the
  host window's inner size, and the abstract scene the caller's callbacks see.
*/
module Props {
  import opened Wrappers

  /** Identity of a three.js object (JavaScript reference identity). */
  type ObjId = nat

  /** What a scene holds, by kind: the default grid and the shadow-receiving
      plane under it, the default ambient and spot lights, and objects the
      caller's callbacks add. */
  datatype SceneObject = Grid | ShadowPlane | AmbientLight | SpotLight | UserObject(id: ObjId)

  /** The top-level children of the scene, in insertion order. */
  type Scene = seq<SceneObject>

  /** A value thrown by a caller-supplied callback. */
  datatype Error = Error(message: string)

  /** What running a caller callback on the scene does: it returns normally,
      or throws part way; either way it may have changed the scene. */
  datatype CallOutcome = Returned(scene: Scene) | Threw(scene: Scene, error: Error)

  /** A caller callback (`setup` or `update`), seen through its effect on the scene. */
  type Callback = Scene -> CallOutcome

  /**
    The props the component reads. Optional props are `Option`s (`None` is
    `undefined`). Flags read only for their truthiness are `bool`s holding
    that truthiness; `addGrid`, `addLight`, `enablePan`, `enableZoom`,
    `enableKeys` are compared with `undefined` first, so they are
    `Option<bool>`: `None` is `undefined`, `Some(b)` an explicit value whose
    truthiness is `b`. Hover and error handlers are only tested for presence.
  */
  datatype Props = Props(
    width: Option<real>,
    height: Option<real>,
    percentageWidth: Option<string>,
    aspect: Option<real>,
    fitScreen: bool,
    marginTop: Option<real>,
    marginBottom: Option<real>,
    addGrid: Option<bool>,
    addLight: Option<bool>,
    addControls: bool,
    enablePan: Option<bool>,
    enableZoom: Option<bool>,
    enableKeys: Option<bool>,
    phi: Option<real>,
    theta: Option<real>,
    setup: Option<Callback>,
    update: Option<Callback>,
    onHoverStart: bool,
    onHoverEnd: bool,
    onError: bool,
    onUpdateAngles: bool)

  /** `window.innerWidth` and `window.innerHeight`. */
  datatype Window = Window(innerWidth: real, innerHeight: real)

  /** A props record with nothing set. */
  function NoProps(): Props {
    Props(None, None, None, None, false, None, None, None, None, false,
          None, None, None, None, None, None, None, false, false, false, false)
  }
}

=== FILE: render_loop.dfy ===
/**
  The per-frame driver `_render`. One frame is a pure function from the
  props, the runtime state and the raycaster's answer to a new state and
  the ordered trace of what the frame did: request the next frame, apply
  the angle override, run `update` (catching and reporting what it throws),
  refresh the camera, cast the pointer ray and step the hover tracker, and
  render.
*/
module RenderLoop {
  import opened Wrappers
  import opened JsValues
  import opened Props
  import Hover
  import opened HitTest
  import opened Sizing
  import opened Lifecycle

  /** One observable step of a frame. */
  datatype Effect =
    | RequestNextFrame
    | SetControlAngles(phi: real, theta: real)
    | CallUpdate
    | ReportError(error: Error)
    | RefreshCamera
    | CastRay
    | HoverCall(event: Hover.HoverEvent<ObjId>)
    | Render

  /** The position of each step in the fixed order of a frame. */
  function Phase(e: Effect): nat {
    match e
    case RequestNextFrame => 0
    case SetControlAngles(_, _) => 1
    case CallUpdate => 2
    case ReportError(_) => 3
    case RefreshCamera => 4
    case CastRay => 5
    case HoverCall(_) => 6
    case Render => 7
  }

  /** The steps of a trace never go back to an earlier phase. */
  predicate InPhaseOrder(es: seq<Effect>) {
    forall i, j | 0 <= i < j < |es| :: Phase(es[i]) <= Phase(es[j])
  }

  /** The errors handed to the `onError` prop, in order. */
  function Reported(es: seq<Effect>): seq<Error>
    decreases |es|
  {
    if |es| == 0 then []
    else (if es[0].ReportError? then [es[0].error] else []) + Reported(es[1..])
  }

  /** The hover events dispatched, in order. */
  function HoverEvents(es: seq<Effect>): seq<Hover.HoverEvent<ObjId>>
    decreases |es|
  {
    if |es| == 0 then []
    else (if es[0].HoverCall? then [es[0].event] else []) + HoverEvents(es[1..])
  }

  /** The trace steps for errors passed to `onError`. */
  function ReportSteps(errors: seq<Error>): (es: seq<Effect>)
    ensures |es| == |errors|
    ensures forall i | 0 <= i < |es| :: es[i] == ReportError(errors[i])
  {
    if |errors| == 0 then [] else [ReportError(errors[0])] + ReportSteps(errors[1..])
  }

  /** The trace steps for hover events. */
  function HoverSteps(events: seq<Hover.HoverEvent<ObjId>>): (es: seq<Effect>)
    ensures |es| == |events|
    ensures forall i | 0 <= i < |es| :: es[i] == HoverCall(events[i])
  {
    if |events| == 0 then [] else [HoverCall(events[0])] + HoverSteps(events[1..])
  }

  /** A new state and the ordered trace that led to it. */
  datatype FrameResult = FrameResult(rt: Runtime, effects: seq<Effect>)

  /** `phi && theta && controls`: a zero angle counts as unset. */
  predicate AnglesOverride(p: Props, rt: Runtime) {
    NumTruthy(p.phi) && NumTruthy(p.theta) && rt.controls.Some?
  }

  /** `(onHoverStart || onHoverEnd) && camera !== null`. */
  predicate TracksHover(p: Props, rt: Runtime) {
    (p.onHoverStart || p.onHoverEnd) && rt.cameraPresent
  }

  /** The scene after this frame's `update`, and the errors it reported. */
  function UpdateScene(p: Props, scene: Scene): (r: (Scene, seq<Error>))
    ensures r.0 == (if p.update.Some? then p.update.value(scene).scene else scene)
    ensures p.update.None? ==> r.1 == []
  {
    match p.update
    case None => (scene, [])
    case Some(f) => Guarded(p, f, scene)
  }

  /** `update` is set and throws on the current scene. */
  predicate UpdateThrows(p: Props, rt: Runtime) {
    p.update.Some? && p.update.value(rt.scene).Threw?
  }

  /** The hover tracker's result for this frame, when it runs. */
  function HoverOf(p: Props, rt: Runtime, hits: seq<Intersection>): Hover.Transition<ObjId> {
    if TracksHover(p, rt) then Hover.Step(rt.hover, NearestHit(hits)) else Hover.Transition(rt.hover, [])
  }

  /**
    One frame, as the code intends it: the next frame is requested first, so
    nothing later in the frame can stop the loop; the update error is caught
    and reported; the frame is rendered exactly once, last. Only the scene
    (through `update`) and the hovered object change.
  */
  function Frame(p: Props, rt: Runtime, hits: seq<Intersection>): (r: FrameResult)
    ensures |r.effects| >= 2 && r.effects[0] == RequestNextFrame && r.effects[|r.effects| - 1] == Render
    ensures multiset(r.effects)[RequestNextFrame] == 1 && multiset(r.effects)[Render] == 1
    ensures InPhaseOrder(r.effects)
    ensures CallUpdate in r.effects <==> p.update.Some?
    ensures CastRay in r.effects <==> TracksHover(p, rt)
    ensures r.rt == FrameState(p, rt, hits)
  {
    FrameResult(FrameState(p, rt, hits), FrameTrace(FrameAngles(p, rt), FrameReports(p, rt), FrameHoverCalls(p, rt, hits)))
  }

  /** The angles the frame forces onto the controls, if it does. */
  function FrameAngles(p: Props, rt: Runtime): (r: Option<(real, real)>)
    ensures r.Some? <==> AnglesOverride(p, rt)
    ensures r.Some? ==> r.value == (p.phi.value, p.theta.value)
  {
    if AnglesOverride(p, rt) then Some((p.phi.value, p.theta.value)) else None
  }

  /** The errors this frame's `update` reports, if there is an `update`. */
  function FrameReports(p: Props, rt: Runtime): (r: Option<seq<Error>>)
    ensures r.Some? <==> p.update.Some?
    ensures r.Some? ==> r.value == UpdateScene(p, rt.scene).1
  {
    if p.update.Some? then Some(UpdateScene(p, rt.scene).1) else None
  }

  /** The hover events this frame dispatches, if it tracks hover. */
  function FrameHoverCalls(p: Props, rt: Runtime, hits: seq<Intersection>): (r: Option<seq<Hover.HoverEvent<ObjId>>>)
    ensures r.Some? <==> TracksHover(p, rt)
    ensures r.Some? ==> r.value == HoverOf(p, rt, hits).events
  {
    if TracksHover(p, rt) then Some(HoverOf(p, rt, hits).events) else None
  }

  /** The runtime state after a frame: the scene `update` leaves and the
      tracker's new hovered object; nothing else changes. */
  function FrameState(p: Props, rt: Runtime, hits: seq<Intersection>): (r: Runtime)
    ensures r.hover == (if TracksHover(p, rt) then NearestHit(hits) else rt.hover)
    ensures r.scene == (if p.update.Some? then p.update.value(rt.scene).scene else rt.scene)
    ensures r.controls == rt.controls && r.view == rt.view && r.cameraPresent == rt.cameraPresent
  {
    rt.(scene := UpdateScene(p, rt.scene).0, hover := HoverOf(p, rt, hits).hovered)
  }

  /** Angle settings only. */
  predicate AngleSteps(es: seq<Effect>) {
    forall i | 0 <= i < |es| :: es[i].SetControlAngles?
  }

  /** Empty, or a call to `update` followed by reports. */
  predicate UpdateSteps(es: seq<Effect>) {
    && (|es| > 0 ==> es[0] == CallUpdate)
    && (forall i | 0 < i < |es| :: es[i].ReportError?)
  }

  /** Empty, or a camera refresh and ray cast followed by hover calls. */
  predicate CastSteps(es: seq<Effect>) {
    && (|es| > 0 ==> |es| >= 2 && es[0] == RefreshCamera && es[1] == CastRay)
    && (forall i | 2 <= i < |es| :: es[i].HoverCall?)
  }

  /** The parts a frame trace is built from. */
  predicate FrameParts(angles: seq<Effect>, update: seq<Effect>, cast: seq<Effect>) {
    AngleSteps(angles) && UpdateSteps(update) && CastSteps(cast)
  }

  /** The angle override's step, when there is one. */
  function AnglePart(angles: Option<(real, real)>): (es: seq<Effect>)
    ensures AngleSteps(es)
    ensures |es| == (if angles.Some? then 1 else 0)
  {
    if angles.Some? then [SetControlAngles(angles.value.0, angles.value.1)] else []
  }

  /** The call to `update` and its reports, when there is an `update`. */
  function UpdatePart(reports: Option<seq<Error>>): (es: seq<Effect>)
    ensures UpdateSteps(es)
    ensures |es| > 0 <==> reports.Some?
    ensures reports.Some? ==> es[1..] == ReportSteps(reports.value)
  {
    if reports.Some? then [CallUpdate] + ReportSteps(reports.value) else []
  }

  /** The ray cast and its hover calls, when hover is tracked. */
  function CastPart(hoverCalls: Option<seq<Hover.HoverEvent<ObjId>>>): (es: seq<Effect>)
    ensures CastSteps(es)
    ensures |es| > 0 <==> hoverCalls.Some?
    ensures hoverCalls.Some? ==> es[2..] == HoverSteps(hoverCalls.value)
  {
    if hoverCalls.Some? then [RefreshCamera, CastRay] + HoverSteps(hoverCalls.value) else []
  }

  /**
    A frame's trace: the request; the angle setting, if any; the call to
    `update`, if any, with its reports; the camera refresh and ray cast, if
    hover is tracked, with the hover calls; the render.
  */
  function FrameTrace(angles: Option<(real, real)>, reports: Option<seq<Error>>,
                      hoverCalls: Option<seq<Hover.HoverEvent<ObjId>>>): (es: seq<Effect>)
    ensures |es| >= 2 && es[0] == RequestNextFrame && es[|es| - 1] == Render
    ensures InPhaseOrder(es)
    ensures multiset(es)[RequestNextFrame] == 1 && multiset(es)[Render] == 1
    ensures CallUpdate in es <==> reports.Some?
    ensures CastRay in es <==> hoverCalls.Some?
  {
    var a := AnglePart(angles);
    var u := UpdatePart(reports);
    var c := CastPart(hoverCalls);
    FrameOrder(a, u, c);
    FrameMembership(a, u, c);
    [RequestNextFrame] + a + u + c + [Render]
  }

  /** The phase of position `i` in a frame trace whose angle part ends
      before `a`, update part before `b`, and ray-cast part before `c`. */
  function SlotPhase(i: nat, a: nat, b: nat, c: nat): nat {
    if i == 0 then 0
    else if i < a then 1
    else if i == a && a < b then 2
    else if i < b then 3
    else if i == b && b < c then 4
    else if i == b + 1 && b + 1 < c then 5
    else if i < c then 6
    else 7
  }

  /** The phases of a frame trace, position by position. */
  lemma FrameLayout(angles: seq<Effect>, update: seq<Effect>, cast: seq<Effect>)
    requires FrameParts(angles, update, cast)
    ensures var es := [RequestNextFrame] + angles + update + cast + [Render];
      var a := 1 + |angles|;
      var b := a + |update|;
      && |es| == b + |cast| + 1
      && forall i | 0 <= i < |es| :: Phase(es[i]) == SlotPhase(i, a, b, b + |cast|)
  {
    var es := [RequestNextFrame] + angles + update + cast + [Render];
    var a := 1 + |angles|;
    var b := a + |update|;
    var c := b + |cast|;
    forall i | 0 <= i < |es|
      ensures Phase(es[i]) == SlotPhase(i, a, b, c)
    {
      if 0 < i < a { assert es[i] == angles[i - 1]; }
      else if a <= i < b { assert es[i] == update[i - a]; }
      else if b <= i < c { assert es[i] == cast[i - b]; }
    }
  }

  /** The trace `Frame` builds out of its parts is in phase order and holds
      one request and one render. */
  lemma FrameOrder(angles: seq<Effect>, update: seq<Effect>, cast: seq<Effect>)
    requires FrameParts(angles, update, cast)
    ensures var es := [RequestNextFrame] + angles + update + cast + [Render];
      && InPhaseOrder(es)
      && multiset(es)[RequestNextFrame] == 1 && multiset(es)[Render] == 1
  {
    var es := [RequestNextFrame] + angles + update + cast + [Render];
    var a := 1 + |angles|;
    var b := a + |update|;
    var c := b + |cast|;
    FrameLayout(angles, update, cast);
    forall i, j | 0 <= i < j < |es| ensures Phase(es[i]) <= Phase(es[j]) {
      assert SlotPhase(i, a, b, c) <= SlotPhase(j, a, b, c);
    }
    forall i | 0 < i < |es| ensures es[i] != RequestNextFrame {
      assert SlotPhase(i, a, b, c) > 0;
    }
    forall i | 0 <= i < |es| - 1 ensures es[i] != Render {
      assert SlotPhase(i, a, b, c) < 7;
    }
    CountAtEnds(es);
  }

  /** The trace `Frame` builds calls `update` and casts the ray exactly when
      those parts are there. */
  lemma FrameMembership(angles: seq<Effect>, update: seq<Effect>, cast: seq<Effect>)
    requires FrameParts(angles, update, cast)
    ensures var es := [RequestNextFrame] + angles + update + cast + [Render];
      && (CallUpdate in es <==> |update| > 0)
      && (CastRay in es <==> |cast| > 0)
  {
    var es := [RequestNextFrame] + angles + update + cast + [Render];
    var a := 1 + |angles|;
    var b := a + |update|;
    var c := b + |cast|;
    FrameLayout(angles, update, cast);
    if |update| > 0 { assert Phase(es[a]) == 2; }
    if |cast| > 0 { assert Phase(es[b + 1]) == 5; }
    if CallUpdate in es {
      var i :| 0 <= i < |es| && es[i] == CallUpdate;
      assert SlotPhase(i, a, b, c) == 2;
    }
    if CastRay in es {
      var i :| 0 <= i < |es| && es[i] == CastRay;
      assert SlotPhase(i, a, b, c) == 5;
    }
  }

  /** A trace that starts with its only request. */
  lemma OnlyRequestFirst(es: seq<Effect>)
    requires |es| >= 1 && es[0] == RequestNextFrame
    requires forall i | 0 < i < |es| :: es[i] != RequestNextFrame
    ensures multiset(es)[RequestNextFrame] == 1
  {
    var tail := es[1..];
    assert es == [RequestNextFrame] + tail;
    assert RequestNextFrame !in tail by {
      forall k | 0 <= k < |tail| ensures tail[k] != RequestNextFrame { assert tail[k] == es[k + 1]; }
    }
  }

  /** A trace that starts with its only request and ends with its only render. */
  lemma CountAtEnds(es: seq<Effect>)
    requires |es| >= 2 && es[0] == RequestNextFrame && es[|es| - 1] == Render
    requires forall i | 0 < i < |es| :: es[i] != RequestNextFrame
    requires forall i | 0 <= i < |es| - 1 :: es[i] != Render
    ensures multiset(es)[RequestNextFrame] == 1 && multiset(es)[Render] == 1
  {
    var mid := es[1..|es| - 1];
    assert es == [RequestNextFrame] + mid + [Render];
    assert RequestNextFrame !in mid by {
      forall k | 0 <= k < |mid| ensures mid[k] != RequestNextFrame { assert mid[k] == es[k + 1]; }
    }
    assert Render !in mid by {
      forall k | 0 <= k < |mid| ensures mid[k] != Render { assert mid[k] == es[k + 1]; }
    }
  }

  // ---------------------------------------------------------------------------
  // What a trace reports and dispatches

  /** Reports of a concatenation are the reports of its halves. */
  lemma {:induction false} ReportedAppend(x: seq<Effect>, y: seq<Effect>)
    ensures Reported(x + y) == Reported(x) + Reported(y)
    decreases |x|
  {
    if |x| == 0 {
      assert x + y == y;
    } else {
      assert (x + y)[0] == x[0];
      assert (x + y)[1..] == x[1..] + y;
      ReportedAppend(x[1..], y);
    }
  }

  /** Hover events of a concatenation are the hover events of its halves. */
  lemma {:induction false} HoverEventsAppend(x: seq<Effect>, y: seq<Effect>)
    ensures HoverEvents(x + y) == HoverEvents(x) + HoverEvents(y)
    decreases |x|
  {
    if |x| == 0 {
      assert x + y == y;
    } else {
      assert (x + y)[0] == x[0];
      assert (x + y)[1..] == x[1..] + y;
      HoverEventsAppend(x[1..], y);
    }
  }

  /** The report steps report exactly their errors and dispatch nothing. */
  lemma {:induction false} ReportStepsProject(errors: seq<Error>)
    ensures Reported(ReportSteps(errors)) == errors
    ensures HoverEvents(ReportSteps(errors)) == []
    decreases |errors|
  {
    if |errors| > 0 {
      var head := [ReportError(errors[0])];
      var rest := ReportSteps(errors[1..]);
      ReportStepsProject(errors[1..]);
      ReportedAppend(head, rest);
      HoverEventsAppend(head, rest);
      assert errors == [errors[0]] + errors[1..];
    }
  }

  /** The hover steps dispatch exactly their events and report nothing. */
  lemma {:induction false} HoverStepsProject(events: seq<Hover.HoverEvent<ObjId>>)
    ensures HoverEvents(HoverSteps(events)) == events
    ensures Reported(HoverSteps(events)) == []
    decreases |events|
  {
    if |events| > 0 {
      var head := [HoverCall(events[0])];
      var rest := HoverSteps(events[1..]);
      HoverStepsProject(events[1..]);
      ReportedAppend(head, rest);
      HoverEventsAppend(head, rest);
      assert events == [events[0]] + events[1..];
    }
  }

  /** What each part of a frame trace reports and dispatches. */
  lemma PartsProject(angles: Option<(real, real)>, reports: Option<seq<Error>>,
                     hoverCalls: Option<seq<Hover.HoverEvent<ObjId>>>)
    ensures Reported(AnglePart(angles)) == [] && HoverEvents(AnglePart(angles)) == []
    ensures Reported(UpdatePart(reports)) == reports.GetOr([])
    ensures HoverEvents(UpdatePart(reports)) == []
    ensures Reported(CastPart(hoverCalls)) == []
    ensures HoverEvents(CastPart(hoverCalls)) == hoverCalls.GetOr([])
  {
    var a := AnglePart(angles);
    if |a| > 0 { assert a[1..] == []; }
    if reports.Some? {
      ReportStepsProject(reports.value);
    }
    if hoverCalls.Some? {
      var c := CastPart(hoverCalls);
      assert c[1..][1..] == c[2..];
      HoverStepsProject(hoverCalls.value);
    }
  }

  /** A frame trace reports the errors of its `update` part and dispatches
      the events of its hover part, and nothing else. */
  lemma TraceProject(angles: Option<(real, real)>, reports: Option<seq<Error>>,
                     hoverCalls: Option<seq<Hover.HoverEvent<ObjId>>>)
    ensures Reported(FrameTrace(angles, reports, hoverCalls)) == reports.GetOr([])
    ensures HoverEvents(FrameTrace(angles, reports, hoverCalls)) == hoverCalls.GetOr([])
  {
    var a := AnglePart(angles);
    var u := UpdatePart(reports);
    var c := CastPart(hoverCalls);
    var head := [RequestNextFrame];
    PartsProject(angles, reports, hoverCalls);
    ReportedAppend(head + a + u + c, [Render]);
    ReportedAppend(head + a + u, c);
    ReportedAppend(head + a, u);
    ReportedAppend(head, a);
    HoverEventsAppend(head + a + u + c, [Render]);
    HoverEventsAppend(head + a + u, c);
    HoverEventsAppend(head + a, u);
    HoverEventsAppend(head, a);
  }

  /**
    In a frame, an error thrown by `update` is handed to the `onError` prop
    exactly once when that prop is set, and nothing else is ever reported.
  */
  lemma FrameReportsUpdateError(p: Props, rt: Runtime, hits: seq<Intersection>)
    ensures Reported(Frame(p, rt, hits).effects) ==
      (if UpdateThrows(p, rt) && p.onError then [p.update.value(rt.scene).error] else [])
  {
    TraceProject(FrameAngles(p, rt), FrameReports(p, rt), FrameHoverCalls(p, rt, hits));
  }

  /** A frame dispatches exactly the hover tracker's events for the nearest
      hit, when hover is tracked, and none otherwise. */
  lemma FrameHoverEvents(p: Props, rt: Runtime, hits: seq<Intersection>)
    ensures HoverEvents(Frame(p, rt, hits).effects) ==
      (if TracksHover(p, rt) then Hover.Step(rt.hover, NearestHit(hits)).events else [])
  {
    TraceProject(FrameAngles(p, rt), FrameReports(p, rt), FrameHoverCalls(p, rt, hits));
  }

  /**
    A frame whose ray is cast into a scene that `update` left empty hits
    nothing: with hover tracked, it ends the old hover if there was one,
    starts none, and leaves nothing hovered.
  */
  lemma EmptySceneEndsHover(p: Props, rt: Runtime, hits: seq<Intersection>)
    requires TracksHover(p, rt)
    requires UpdateScene(p, rt.scene).0 == []
    requires RaycastOf(UpdateScene(p, rt.scene).0, hits)
    ensures Frame(p, rt, hits).rt.hover == None
    ensures HoverEvents(Frame(p, rt, hits).effects) ==
      (if rt.hover.Some? then [Hover.HoverEnd(rt.hover.value)] else [])
  {
    assert NearestHit(hits) == None;
    FrameHoverEvents(p, rt, hits);
  }

  // ---------------------------------------------------------------------------
  // The frame as written

  /**
    The steps of a frame cut short by an exception escaping `_render`
    after `update` was called: the request, the angle setting if any, the
    call to `update`, and nothing after it.
  */
  function AbortedTrace(angles: Option<(real, real)>): (es: seq<Effect>)
    ensures |es| >= 2 && es[0] == RequestNextFrame && es[|es| - 1] == CallUpdate
    ensures forall i | 0 < i < |es| :: es[i] != RequestNextFrame
    ensures Render !in es && CastRay !in es
    ensures Reported(es) == [] && HoverEvents(es) == []
  {
    var a := AnglePart(angles);
    var es := [RequestNextFrame] + a + [CallUpdate];
    assert Render !in es && CastRay !in es by {
      assert forall i | 0 <= i < |es| :: es[i] == RequestNextFrame || es[i].SetControlAngles? || es[i] == CallUpdate;
    }
    assert forall i | 0 < i < |es| :: es[i] != RequestNextFrame by {
      assert forall i | 0 < i < |es| :: es[i].SetControlAngles? || es[i] == CallUpdate;
    }
    assert Reported(es) == [] by {
      PartsProject(angles, None, None);
      ReportedAppend([RequestNextFrame] + a, [CallUpdate]);
      ReportedAppend([RequestNextFrame], a);
    }
    assert HoverEvents(es) == [] by {
      PartsProject(angles, None, None);
      HoverEventsAppend([RequestNextFrame] + a, [CallUpdate]);
      HoverEventsAppend([RequestNextFrame], a);
    }
    es
  }

  /**
    `_render` as written. The catch block calls `this.onError`, but `this`
    is only the component on the first call, made directly by `init`; every
    later frame is called by `requestAnimationFrame`, where `this` is not
    the component and the call itself throws. So on a `scheduled` frame an
    `update` that throws aborts the frame right after the call: its error
    never reaches `onError`, the hover tracker does not run and the frame
    is not rendered. The next frame was already requested, so the loop goes
    on.
  */
  function FrameAsWritten(p: Props, rt: Runtime, hits: seq<Intersection>, scheduled: bool): (r: FrameResult)
    ensures |r.effects| >= 2 && r.effects[0] == RequestNextFrame
    ensures multiset(r.effects)[RequestNextFrame] == 1
    ensures !scheduled || !UpdateThrows(p, rt) ==> r == Frame(p, rt, hits)
    ensures scheduled && UpdateThrows(p, rt) ==>
      && Render !in r.effects && CastRay !in r.effects
      && Reported(r.effects) == [] && HoverEvents(r.effects) == []
      && r.rt.scene == p.update.value(rt.scene).scene
      && r.rt.hover == rt.hover
  {
    if scheduled && UpdateThrows(p, rt) then
      var es := AbortedTrace(FrameAngles(p, rt));
      OnlyRequestFirst(es);
      FrameResult(rt.(scene := p.update.value(rt.scene).scene), es)
    else
      Frame(p, rt, hits)
  }

  /**
    The discrepancy: on a scheduled frame whose `update` throws with
    `onError` set, the intended frame reports the error once and renders,
    while the frame as written reports nothing and does not render.
  */
  lemma ScheduledThrowIsLost(p: Props, rt: Runtime, hits: seq<Intersection>)
    requires UpdateThrows(p, rt) && p.onError
    ensures Reported(Frame(p, rt, hits).effects) == [p.update.value(rt.scene).error]
    ensures Render in Frame(p, rt, hits).effects
    ensures Reported(FrameAsWritten(p, rt, hits, true).effects) == []
    ensures Render !in FrameAsWritten(p, rt, hits, true).effects
  {
    FrameReportsUpdateError(p, rt, hits);
    var es := Frame(p, rt, hits).effects;
    assert es[|es| - 1] == Render;
  }

  /** An `update` that always throws, and an `onError` handler. */
  function ThrowingProps(): Props {
    NoProps().(update := Some((s: Scene) => Threw(s, Error("update failed"))), onError := true)
  }

  /** A concrete case: with `ThrowingProps`, the first frame (called by
      `init`) reports the error, the second (called by
      `requestAnimationFrame`) reports nothing. */
  lemma SecondFrameLosesError(rt: Runtime)
    ensures Reported(FrameAsWritten(ThrowingProps(), rt, [], false).effects) == [Error("update failed")]
    ensures Reported(FrameAsWritten(ThrowingProps(), rt, [], true).effects) == []
  {
    ScheduledThrowIsLost(ThrowingProps(), rt, []);
  }

  // ---------------------------------------------------------------------------
  // Many frames

  /**
    The render loop over a sequence of frames, one raycaster answer per
    frame, as intended: the traces of the frames one after the other.
  */
  function Frames(p: Props, rt: Runtime, frames: seq<seq<Intersection>>): (r: FrameResult)
    ensures multiset(r.effects)[RequestNextFrame] == |frames|
    ensures multiset(r.effects)[Render] == |frames|
    ensures r.rt.controls == rt.controls && r.rt.view == rt.view && r.rt.cameraPresent == rt.cameraPresent
    decreases |frames|
  {
    if |frames| == 0 then
      FrameResult(rt, [])
    else
      var first := Frame(p, rt, frames[0]);
      var rest := Frames(p, first.rt, frames[1..]);
      FrameResult(rest.rt, first.effects + rest.effects)
  }

  /** With an `update` that throws on every scene and `onError` set, every
      frame reports exactly one error. */
  lemma {:induction false} FramesReportEveryThrow(p: Props, rt: Runtime, frames: seq<seq<Intersection>>)
    requires p.update.Some? && p.onError
    requires forall s: Scene :: p.update.value(s).Threw?
    ensures |Reported(Frames(p, rt, frames).effects)| == |frames|
    decreases |frames|
  {
    if |frames| > 0 {
      var first := Frame(p, rt, frames[0]);
      var rest := Frames(p, first.rt, frames[1..]);
      assert Frames(p, rt, frames).effects == first.effects + rest.effects;
      assert |Reported(first.effects)| == 1 by {
        FrameReportsUpdateError(p, rt, frames[0]);
      }
      assert |Reported(rest.effects)| == |frames| - 1 by {
        FramesReportEveryThrow(p, first.rt, frames[1..]);
      }
      ReportedAppend(first.effects, rest.effects);
    }
  }

  /** The errors `f` throws over `n` successive calls, each on the scene the
      previous call left. */
  function ThrownErrors(f: Callback, s: Scene, n: nat): seq<Error>
    decreases n
  {
    if n == 0 then [] else Thrown(f(s)) + ThrownErrors(f, f(s).scene, n - 1)
  }

  /** One call of `ThrownErrors`: the first call's error, then the rest. */
  lemma ThrownErrorsStep(f: Callback, s: Scene, n: nat)
    requires n > 0
    ensures ThrownErrors(f, s, n) == Thrown(f(s)) + ThrownErrors(f, f(s).scene, n - 1)
  {
  }

  /** The error a call threw, if it threw. */
  function Thrown(o: CallOutcome): seq<Error> {
    match o
    case Returned(_) => []
    case Threw(_, e) => [e]
  }

  /** With `onError` set, a frame reports exactly what `update` threw. */
  lemma FrameReportsThrown(p: Props, rt: Runtime, hits: seq<Intersection>)
    requires p.update.Some? && p.onError
    ensures Reported(Frame(p, rt, hits).effects) == Thrown(p.update.value(rt.scene))
    ensures Frame(p, rt, hits).rt.scene == p.update.value(rt.scene).scene
  {
    FrameReportsUpdateError(p, rt, hits);
  }

  /** With `onError` set, the loop reports exactly the errors `update`
      throws, frame by frame, in order. */
  lemma {:induction false} FramesReportThrownErrors(p: Props, rt: Runtime, frames: seq<seq<Intersection>>)
    requires p.update.Some? && p.onError
    ensures Reported(Frames(p, rt, frames).effects) == ThrownErrors(p.update.value, rt.scene, |frames|)
    decreases |frames|
  {
    if |frames| > 0 {
      FramesReportThrownErrors(p, Frame(p, rt, frames[0]).rt, frames[1..]);
      ThrownFrameStep(p, rt, frames);
    }
  }

  /** The inductive step of `FramesReportThrownErrors`: the first frame's
      own report goes ahead of what the later frames report. */
  lemma ThrownFrameStep(p: Props, rt: Runtime, frames: seq<seq<Intersection>>)
    requires p.update.Some? && p.onError && |frames| > 0
    requires Reported(Frames(p, Frame(p, rt, frames[0]).rt, frames[1..]).effects) ==
      ThrownErrors(p.update.value, Frame(p, rt, frames[0]).rt.scene, |frames[1..]|)
    ensures Reported(Frames(p, rt, frames).effects) == ThrownErrors(p.update.value, rt.scene, |frames|)
  {
    var first := Frame(p, rt, frames[0]);
    var rest := Frames(p, first.rt, frames[1..]);
    assert Frames(p, rt, frames).effects == first.effects + rest.effects;
    ReportedAppend(first.effects, rest.effects);
    FrameReportsThrown(p, rt, frames[0]);
    ThrownErrorsStep(p.update.value, rt.scene, |frames|);
  }

  /** Scheduled frames of the loop as written, one after the other. */
  function ScheduledAsWritten(p: Props, rt: Runtime, frames: seq<seq<Intersection>>): (r: FrameResult)
    ensures multiset(r.effects)[RequestNextFrame] == |frames|
    decreases |frames|
  {
    if |frames| == 0 then
      FrameResult(rt, [])
    else
      var first := FrameAsWritten(p, rt, frames[0], true);
      var rest := ScheduledAsWritten(p, first.rt, frames[1..]);
      FrameResult(rest.rt, first.effects + rest.effects)
  }

  /** The loop as written: the first frame is called directly by `init`,
      every later one by `requestAnimationFrame`. */
  function LoopAsWritten(p: Props, rt: Runtime, frames: seq<seq<Intersection>>): (r: FrameResult)
    ensures multiset(r.effects)[RequestNextFrame] == |frames|
  {
    if |frames| == 0 then
      FrameResult(rt, [])
    else
      var first := FrameAsWritten(p, rt, frames[0], false);
      var rest := ScheduledAsWritten(p, first.rt, frames[1..]);
      FrameResult(rest.rt, first.effects + rest.effects)
  }

  /** Scheduled frames with an `update` that always throws report nothing
      and render nothing. */
  lemma {:induction false} ScheduledThrowsSilent(p: Props, rt: Runtime, frames: seq<seq<Intersection>>)
    requires p.update.Some?
    requires forall s: Scene :: p.update.value(s).Threw?
    ensures Reported(ScheduledAsWritten(p, rt, frames).effects) == []
    ensures Render !in ScheduledAsWritten(p, rt, frames).effects
    decreases |frames|
  {
    if |frames| > 0 {
      var first := FrameAsWritten(p, rt, frames[0], true);
      var rest := ScheduledAsWritten(p, first.rt, frames[1..]);
      assert ScheduledAsWritten(p, rt, frames).effects == first.effects + rest.effects;
      assert UpdateThrows(p, rt);
      assert Reported(first.effects) == [] && Render !in first.effects;
      ScheduledThrowsSilent(p, first.rt, frames[1..]);
      ReportedAppend(first.effects, rest.effects);
    }
  }

  /**
    The loop as written with an `update` that always throws and `onError`
    set: over any number of frames it requests every next frame but reports
    only the first frame's error and renders only the first frame.
  */
  lemma LoopAsWrittenReportsOnce(p: Props, rt: Runtime, frames: seq<seq<Intersection>>)
    requires p.update.Some? && p.onError
    requires forall s: Scene :: p.update.value(s).Threw?
    requires |frames| >= 1
    ensures Reported(LoopAsWritten(p, rt, frames).effects) == [p.update.value(rt.scene).error]
    ensures multiset(LoopAsWritten(p, rt, frames).effects)[Render] == 1
    ensures multiset(LoopAsWritten(p, rt, frames).effects)[RequestNextFrame] == |frames|
  {
    var first := FrameAsWritten(p, rt, frames[0], false);
    var rest := ScheduledAsWritten(p, first.rt, frames[1..]);
    assert LoopAsWritten(p, rt, frames).effects == first.effects + rest.effects;
    assert first == Frame(p, rt, frames[0]);
    assert Reported(first.effects) == [p.update.value(rt.scene).error] by {
      assert UpdateThrows(p, rt);
      FrameReportsUpdateError(p, rt, frames[0]);
    }
    ScheduledThrowsSilent(p, first.rt, frames[1..]);
    ReportedAppend(first.effects, rest.effects);
    assert multiset(rest.effects)[Render] == 0;
  }

  /** The nearest hit of each frame's raycaster answer. */
  function NearestHits(frames: seq<seq<Intersection>>): (r: seq<Option<ObjId>>)
    ensures |r| == |frames|
    ensures forall i | 0 <= i < |r| :: r[i] == NearestHit(frames[i])
  {
    if |frames| == 0 then [] else [NearestHit(frames[0])] + NearestHits(frames[1..])
  }

  /**
    While hover is tracked, the loop dispatches exactly the events of the
    hover tracker run over the frames' nearest hits, and ends hovering what
    the tracker ends on.
  */
  lemma {:induction false} FramesFollowTracker(p: Props, rt: Runtime, frames: seq<seq<Intersection>>)
    requires TracksHover(p, rt)
    ensures var r := Frames(p, rt, frames);
      var t := Hover.Run(rt.hover, NearestHits(frames));
      HoverEvents(r.effects) == t.events && r.rt.hover == t.hovered
    decreases |frames|
  {
    if |frames| > 0 {
      var first := Frame(p, rt, frames[0]);
      var rest := Frames(p, first.rt, frames[1..]);
      var step := Hover.Step(rt.hover, NearestHit(frames[0]));
      assert Frames(p, rt, frames) == FrameResult(rest.rt, first.effects + rest.effects);
      assert HoverEvents(first.effects) == step.events && first.rt.hover == step.hovered by {
        FrameHoverEvents(p, rt, frames[0]);
      }
      assert NearestHits(frames)[1..] == NearestHits(frames[1..]);
      FramesFollowTracker(p, first.rt, frames[1..]);
      HoverEventsAppend(first.effects, rest.effects);
    }
  }

  /**
    Starting with nothing hovered and tracking hover, the hover events the
    loop dispatches alternate: a start first, never two starts in a row,
    and every end names the object of the start just before it.
  */
  lemma FramesHoverAlternates(p: Props, rt: Runtime, frames: seq<seq<Intersection>>)
    requires TracksHover(p, rt) && rt.hover.None?
    ensures var es := HoverEvents(Frames(p, rt, frames).effects);
      && Hover.Alternating(None, es)
      && (|es| > 0 ==> es[0].HoverStart?)
  {
    FramesFollowTracker(p, rt, frames);
    Hover.RunAlternates(NearestHits(frames));
  }

  // ---------------------------------------------------------------------------
  // Angles, and mounting

  /** `setAngles(phi, theta)`: sets both angles whenever controls exist,
      whatever the values. */
  function SetAngles(rt: Runtime, phi: real, theta: real): (es: seq<Effect>)
    ensures rt.controls.None? ==> es == []
    ensures rt.controls.Some? ==> |es| == 1
    ensures SetControlAngles(phi, theta) in es <==> rt.controls.Some?
  {
    if rt.controls.Some? then [SetControlAngles(phi, theta)] else []
  }

  /** A zero angle prop is never forced by the frame (it is falsy), while
      `setAngles` applies it. */
  lemma ZeroAngleSkippedByFrame(p: Props, rt: Runtime, hits: seq<Intersection>, theta: real)
    requires p.phi == Some(0.0) && rt.controls.Some?
    ensures forall e | e in Frame(p, rt, hits).effects :: !e.SetControlAngles?
    ensures SetAngles(rt, 0.0, theta) == [SetControlAngles(0.0, theta)]
  {
    FrameAnglesOnlyIfOverride(FrameAngles(p, rt), FrameReports(p, rt), FrameHoverCalls(p, rt, hits));
  }

  /** A frame forces the angles to the `phi` and `theta` props right after
      requesting the next frame when both are truthy and controls exist,
      and otherwise never sets them. */
  lemma FrameSetsAnglesIffOverride(p: Props, rt: Runtime, hits: seq<Intersection>)
    ensures AnglesOverride(p, rt) ==>
      Frame(p, rt, hits).effects[1] == SetControlAngles(p.phi.value, p.theta.value)
    ensures !AnglesOverride(p, rt) ==>
      forall e | e in Frame(p, rt, hits).effects :: !e.SetControlAngles?
  {
    var angles := FrameAngles(p, rt);
    var reports := FrameReports(p, rt);
    var hoverCalls := FrameHoverCalls(p, rt, hits);
    assert Frame(p, rt, hits).effects == FrameTrace(angles, reports, hoverCalls);
    if AnglesOverride(p, rt) {
      TraceSetsAngles(angles, reports, hoverCalls);
    } else {
      FrameAnglesOnlyIfOverride(angles, reports, hoverCalls);
    }
  }

  /** Given angles to set, a frame trace sets them right after the request. */
  lemma TraceSetsAngles(angles: Option<(real, real)>, reports: Option<seq<Error>>,
                        hoverCalls: Option<seq<Hover.HoverEvent<ObjId>>>)
    requires angles.Some?
    ensures FrameTrace(angles, reports, hoverCalls)[1] == SetControlAngles(angles.value.0, angles.value.1)
  {
    var pre := [RequestNextFrame] + AnglePart(angles);
    assert |pre| == 2 && pre[1] == SetControlAngles(angles.value.0, angles.value.1);
    var es := pre + UpdatePart(reports) + CastPart(hoverCalls) + [Render];
    assert es[1] == pre[1];
  }

  /** A frame trace sets the angles only when it was given angles to set. */
  lemma FrameAnglesOnlyIfOverride(angles: Option<(real, real)>, reports: Option<seq<Error>>,
                                  hoverCalls: Option<seq<Hover.HoverEvent<ObjId>>>)
    ensures angles.None? ==> forall e | e in FrameTrace(angles, reports, hoverCalls) :: !e.SetControlAngles?
  {
    var u := UpdatePart(reports);
    var c := CastPart(hoverCalls);
    if angles.None? {
      assert [RequestNextFrame] + AnglePart(angles) + u == [RequestNextFrame] + u;
      NoAngleStep(u, c);
    }
  }

  /** Update and ray-cast parts hold no angle setting. */
  lemma NoAngleStep(u: seq<Effect>, c: seq<Effect>)
    requires UpdateSteps(u) && CastSteps(c)
    ensures forall e | e in [RequestNextFrame] + u + c + [Render] :: !e.SetControlAngles?
  {
    forall e | e in [RequestNextFrame] + u + c + [Render] ensures !e.SetControlAngles? {
      if e in u {
        var i :| 0 <= i < |u| && u[i] == e;
      } else if e in c {
        var i :| 0 <= i < |c| && c[i] == e;
      }
    }
  }

  /** The state right after mounting, the trace of the first frame, and
      what went to `onError` on the way. */
  datatype Mounted = Mounted(rt: Runtime, firstFrame: seq<Effect>, reported: seq<Error>)

  /**
    `componentDidMount`: `init` (camera sized by `getSize`, scene populated,
    first frame run directly), then `updateDimensions`. The hovered object
    starts as `inherited`, what `lastIntersectedObj` held before (`None` on
    the first mount in a page). The sizing that holds after mounting is
    `updateDimensions`'s, the first frame is rendered once, and the
    controls are those population created.
  */
  function Mount(p: Props, win: Window, inherited: Option<ObjId>, hits: seq<Intersection>): (r: Mounted)
    ensures r.rt.view == ApplyDimensions(p, win)
    ensures |r.firstFrame| >= 2 && r.firstFrame[0] == RequestNextFrame && multiset(r.firstFrame)[Render] == 1
    ensures r.rt.controls == Populate(p, [], None).controls
  {
    var init := Initialize(p, win, inherited);
    var first := FrameAsWritten(p, init.rt, hits, false);
    Mounted(Resize(p, first.rt, win), first.effects, init.reported + Reported(first.effects))
  }

  /** Mounting reports an error thrown by `setup` and then one thrown by the
      first `update`, in that order, each only when `onError` is set. */
  lemma MountReportsErrors(p: Props, win: Window, inherited: Option<ObjId>, hits: seq<Intersection>)
    ensures var pop := Populate(p, [], None);
      Mount(p, win, inherited, hits).reported == pop.reported +
        (if p.update.Some? && p.update.value(pop.scene).Threw? && p.onError
         then [p.update.value(pop.scene).error] else [])
  {
    var init := Initialize(p, win, inherited);
    FrameReportsUpdateError(p, init.rt, hits);
  }

  /** After mounting, the hovered object is the first frame's nearest hit
      when a hover handler is set, and the inherited one otherwise. */
  lemma MountHovers(p: Props, win: Window, inherited: Option<ObjId>, hits: seq<Intersection>)
    ensures Mount(p, win, inherited, hits).rt.hover ==
      (if p.onHoverStart || p.onHoverEnd then NearestHit(hits) else inherited)
  {
  }

  /**
    A component mounted while `lastIntersectedObj` still holds `x` from an
    earlier one: unless the first ray hits `x` again, its first frame opens
    with `hoverEnd(x)` for an object it never started hovering.
  */
  lemma RemountEndsStaleHover(p: Props, win: Window, x: ObjId, hits: seq<Intersection>)
    requires p.onHoverStart || p.onHoverEnd
    requires NearestHit(hits) != Some(x)
    ensures var events := HoverEvents(Mount(p, win, Some(x), hits).firstFrame);
      |events| > 0 && events[0] == Hover.HoverEnd(x)
  {
    var init := Initialize(p, win, Some(x));
    assert Mount(p, win, Some(x), hits).firstFrame == Frame(p, init.rt, hits).effects;
    FrameHoverEvents(p, init.rt, hits);
  }

  /** On the first mount in a page nothing is hovered before the first frame,
      so its hover calls, if any, open with a start. */
  lemma FirstMountStartsHover(p: Props, win: Window, hits: seq<Intersection>)
    ensures var events := HoverEvents(Mount(p, win, None, hits).firstFrame);
      |events| > 0 ==> events[0].HoverStart?
  {
    var init := Initialize(p, win, None);
    assert Mount(p, win, None, hits).firstFrame == Frame(p, init.rt, hits).effects;
    FrameHoverEvents(p, init.rt, hits);
  }
}

=== FILE: sizing.dfy ===
/**
  Viewport sizing. Two rules compute a size from the props and the window:
  `Dimensions` (the resize handler `updateDimensions`) and `InitialSize`
  (`getSize`, used once when the camera is created). They differ: the first
  reads the percentage with `parseInt` and honours `fitScreen`, margins and
  the `height` prop; the second reads it with `parseFloat` and always divides
  by `aspect`.
*/
module Sizing {
  import opened Wrappers
  import opened JsValues
  import opened Props

  /** A width and height in CSS pixels, as JavaScript numbers. */
  datatype Size = Size(width: Num, height: Num)

  /** What the sizing writes into the host objects: the canvas's `height`
      attribute, the renderer's output size (`None` until first set), and
      the perspective camera's aspect ratio. */
  datatype View = View(canvasHeight: Num, rendererSize: Option<Size>, cameraAspect: Num)

  /** The amount a margin prop takes off the fit-screen height: nothing when unset. */
  function Inset(o: Option<real>): real {
    if NumTruthy(o) then o.value else 0.0
  }

  /** `innerWidth * percent / 100`: `NaN` stays `NaN`, and an infinite
      percent gives an infinite width unless the window has no width. */
  function PercentOf(win: Window, percent: Num): (r: Num)
    ensures r.Finite? <==> percent.Finite?
    ensures r.Finite? ==> r.value * 100.0 == win.innerWidth * percent.value
    ensures r.NaN? <==> percent.NaN? || (percent.Infinity? && win.innerWidth == 0.0)
  {
    Div(Mul(Finite(win.innerWidth), percent), Finite(100.0))
  }

  /** `parseInt(s, 10)` as a number. */
  function IntPercent(s: string): Num {
    match ParseInt(s)
    case Some(n) => Finite(n as real)
    case None => NaN
  }

  /**
    `updateDimensions`: a truthy `percentageWidth` replaces `width` by that
    integer percentage of the window width; with `fitScreen` the height is
    the window height less the truthy margins, whatever the aspect; without
    it a truthy `aspect` derives the height from the width, and otherwise the
    `height` prop passes through.
  */
  function Dimensions(p: Props, win: Window): (r: Size)
    ensures StrTruthy(p.percentageWidth) ==> r.width == PercentOf(win, IntPercent(p.percentageWidth.value))
    ensures !StrTruthy(p.percentageWidth) ==> r.width == OrUndefined(p.width)
    ensures p.fitScreen ==> r.height == Finite(win.innerHeight - Inset(p.marginTop) - Inset(p.marginBottom))
    ensures !p.fitScreen && NumTruthy(p.aspect) ==> r.height == Div(r.width, Finite(p.aspect.value))
    ensures !p.fitScreen && !NumTruthy(p.aspect) ==> r.height == OrUndefined(p.height)
  {
    var width :=
      if StrTruthy(p.percentageWidth) then PercentOf(win, IntPercent(p.percentageWidth.value))
      else OrUndefined(p.width);
    var height := if NumTruthy(p.aspect) then Div(width, Finite(p.aspect.value)) else OrUndefined(p.height);
    if p.fitScreen then
      var h := win.innerHeight;
      var h' := if NumTruthy(p.marginTop) then h - p.marginTop.value else h;
      var h'' := if NumTruthy(p.marginBottom) then h' - p.marginBottom.value else h';
      Size(width, Finite(h''))
    else
      Size(width, height)
  }

  /** `width / height`, the camera's aspect ratio for a size. */
  function CameraAspect(s: Size): (r: Num)
    ensures r.Finite? <==> s.width.Finite? && (s.height.Infinity? || (s.height.Finite? && s.height.value != 0.0))
    ensures r.Finite? && s.height.Finite? ==> r.value * s.height.value == s.width.value
    ensures r.Finite? && s.height.Infinity? ==> r.value == 0.0
  {
    Div(s.width, s.height)
  }

  /** What `updateDimensions` writes: canvas height, renderer size, camera aspect. */
  function ApplyDimensions(p: Props, win: Window): (v: View)
    ensures v.rendererSize == Some(Dimensions(p, win))
    ensures v.canvasHeight == Dimensions(p, win).height
    ensures v.cameraAspect == CameraAspect(Dimensions(p, win))
  {
    var size := Dimensions(p, win);
    View(size.height, Some(size), CameraAspect(size))
  }

  /**
    `getSize`: a truthy `percentageWidth` replaces `width` by that
    `parseFloat` percentage of the window width, and the height is always
    the width divided by `aspect` (non-finite when `aspect` is unset or 0).
  */
  function InitialSize(p: Props, win: Window): (r: Size)
    ensures StrTruthy(p.percentageWidth) ==> r.width == PercentOf(win, ParseFloat(p.percentageWidth.value))
    ensures !StrTruthy(p.percentageWidth) ==> r.width == OrUndefined(p.width)
    ensures NumTruthy(p.aspect) ==> r.height == Div(r.width, Finite(p.aspect.value))
    ensures !NumTruthy(p.aspect) ==> !r.height.Finite?
  {
    var width :=
      if StrTruthy(p.percentageWidth) then PercentOf(win, ParseFloat(p.percentageWidth.value))
      else OrUndefined(p.width);
    Size(width, Div(width, OrUndefined(p.aspect)))
  }

  /** What `init` writes: the canvas height, and the camera built with aspect `width / height`. */
  function InitialView(p: Props, win: Window): (v: View)
    ensures v.rendererSize.None?
    ensures v.canvasHeight == InitialSize(p, win).height
    ensures v.cameraAspect == CameraAspect(InitialSize(p, win))
  {
    var size := InitialSize(p, win);
    View(size.height, None, CameraAspect(size))
  }

  // ---------------------------------------------------------------------------
  // Properties

  /** Under `fitScreen` the height depends on the window height and the two
      margins only: not on `aspect`, `height`, `width` or `percentageWidth`. */
  lemma FitScreenHeightIgnoresAspect(p: Props, q: Props, win: Window, win': Window)
    requires p.fitScreen && q.fitScreen
    requires p.marginTop == q.marginTop && p.marginBottom == q.marginBottom
    requires win.innerHeight == win'.innerHeight
    ensures Dimensions(p, win).height == Dimensions(q, win').height
  {
  }

  /** The width depends on `width`, `percentageWidth` and the window width only. */
  lemma WidthIgnoresHeightOptions(p: Props, q: Props, win: Window, win': Window)
    requires p.width == q.width && p.percentageWidth == q.percentageWidth
    requires win.innerWidth == win'.innerWidth
    ensures Dimensions(p, win).width == Dimensions(q, win').width
  {
    if StrTruthy(p.percentageWidth) {
      var x := IntPercent(p.percentageWidth.value);
      assert PercentOf(win, x) == PercentOf(win', x);
    }
  }

  /** `x / (x / a) == a` for finite non-zero `x` and `a`. */
  lemma DivBack(x: real, a: real)
    requires x != 0.0 && a != 0.0
    ensures Div(Finite(x), Div(Finite(x), Finite(a))) == Finite(a)
  {
    var h := x / a;
    assert h * a == x;
    assert h != 0.0;
    var q := x / h;
    assert q * h == x;
    assert q * h == a * h;
  }

  /**
    Without `fitScreen`, a truthy `aspect` and a finite non-zero width give
    the camera exactly that aspect ratio.
  */
  lemma CameraKeepsAspect(p: Props, win: Window)
    requires !p.fitScreen && NumTruthy(p.aspect)
    requires Dimensions(p, win).width.Finite? && Dimensions(p, win).width.value != 0.0
    ensures ApplyDimensions(p, win).cameraAspect == Finite(p.aspect.value)
  {
    DivBack(Dimensions(p, win).width.value, p.aspect.value);
  }

  /** The camera created by `init` has the `aspect` prop as its aspect ratio
      whenever the initial width is finite and non-zero. */
  lemma InitialCameraKeepsAspect(p: Props, win: Window)
    requires NumTruthy(p.aspect)
    requires InitialSize(p, win).width.Finite? && InitialSize(p, win).width.value != 0.0
    ensures InitialView(p, win).cameraAspect == Finite(p.aspect.value)
  {
    DivBack(InitialSize(p, win).width.value, p.aspect.value);
  }

  /**
    An `aspect` of 0 is a legal value that is falsy: `getSize` divides by it
    anyway, so a positive width gives an infinite height, and the camera
    `init` builds then gets aspect `width / Infinity`, which is 0.
  */
  lemma ZeroAspectFlattensCamera(p: Props, win: Window)
    requires p.aspect == Some(0.0)
    requires InitialSize(p, win).width.Finite? && InitialSize(p, win).width.value > 0.0
    ensures InitialSize(p, win).height == Infinity(false)
    ensures InitialView(p, win).cameraAspect == Finite(0.0)
  {
    var size := InitialSize(p, win);
    assert size.height == Div(size.width, Finite(0.0));
  }

  /** A percentage written as a whole number (or no percentage) sizes the
      viewport the same way at creation and on resize, unless `fitScreen`. */
  lemma InitialAgreesOnWholePercent(p: Props, win: Window, n: nat)
    requires !p.fitScreen && NumTruthy(p.aspect)
    requires p.percentageWidth == None || p.percentageWidth == Some(Decimal(n) + "%")
    ensures InitialSize(p, win) == Dimensions(p, win)
  {
    if p.percentageWidth.Some? {
      WholePercentReadsAlike(n);
    }
    assert InitialSize(p, win).width == Dimensions(p, win).width;
  }

  /** `parseFloat` and `parseInt` read a whole-number percentage alike. */
  lemma WholePercentReadsAlike(n: nat)
    ensures ParseFloat(Decimal(n) + "%") == Finite(n as real)
    ensures IntPercent(Decimal(n) + "%") == Finite(n as real)
  {
    ParseFloatNumeral(n, "%");
    assert "" + "" + Decimal(n) + "%" == Decimal(n) + "%";
    ParseIntNumeral("", "", n, "%");
  }

  /** A fractional percentage sizes the viewport differently at creation
      (`parseFloat`) and on resize (`parseInt`). */
  lemma InitialDisagreesOnFractionalPercent(p: Props)
    requires p.percentageWidth == Some("12.5%")
    ensures InitialSize(p, Window(1000.0, 800.0)).width == Finite(125.0)
    ensures Dimensions(p, Window(1000.0, 800.0)).width == Finite(120.0)
  {
    ParseIntTruncatesFraction(p.percentageWidth.value);
  }

  /** `"100%"` reads as 100 under both conversions. */
  lemma HundredPercent()
    ensures ParseInt("100%") == Some(100)
    ensures ParseFloat("100%") == Finite(100.0)
  {
    assert Decimal(1) == "1";
    assert Decimal(10) == "10";
    assert Decimal(100) == "100";
    assert "" + "" + "100" + "%" == "100%";
    ParseIntNumeral("", "", 100, "%");
    assert Decimal(100) + "%" == "100%";
    ParseFloatNumeral(100, "%");
  }

  /** The demo configuration: 30px top and 110px bottom margin, aspect 16/9,
      full window width, fit to screen. */
  function DemoProps(): Props {
    NoProps().(marginTop := Some(30.0), marginBottom := Some(110.0), aspect := Some(16.0 / 9.0),
               percentageWidth := Some("100%"), fitScreen := true, addControls := true)
  }

  /** The demo viewport fills the window width and the window height less
      140px; in an 800px-high window that is 660px. */
  lemma DemoFillsWindow(win: Window)
    ensures Dimensions(DemoProps(), win) == Size(Finite(win.innerWidth), Finite(win.innerHeight - 140.0))
    ensures Dimensions(DemoProps(), Window(1280.0, 800.0)) == Size(Finite(1280.0), Finite(660.0))
  {
    HundredPercent();
    assert IntPercent("100%") == Finite(100.0);
    assert DemoProps().percentageWidth.value == "100%";
  }

  /** Half the window width at aspect 16/9: 1000 gives 500 by 281.25. */
  lemma HalfWidthAtSixteenNinths()
    ensures var p := NoProps().(percentageWidth := Some("50%"), aspect := Some(16.0 / 9.0));
      Dimensions(p, Window(1000.0, 800.0)) == Size(Finite(500.0), Finite(281.25))
  {
    assert Decimal(5) == "5";
    assert Decimal(50) == "50";
    assert "" + "" + "50" + "%" == "50%";
    ParseIntNumeral("", "", 50, "%");
  }
}

=== FILE: wrappers.dfy ===
/**
  Option: the model's stand-in for a JavaScript value that may be missing.
  For a prop, `None` is `undefined` (an explicit `null` is not modelled);
  for the hovered object, `None` is `null`.
*/
module Wrappers {

  datatype Option<+T> = None | Some(value: T) {

    /** Returns the value in Some, or `default` when None. */
    function GetOr(default: T): T {
      match this
      case Some(v) => v
      case None => default
    }
  }
}
